=== FILE: README.md ===
# bevy_serde_project: the entity projection and type tags, in Dafny

This project models the core of `bevy_serde_project` (the `main/src` crate). It
covers two things:

- **The entity-to-document projection.** A `BevyObject` reads an entity and its
  descendants into a serde value (`to_ser`). It writes such a value back by
  inserting components and spawning children (`from_de`).
- **The type-tag registry.** Trait objects are saved as externally tagged values
  and loaded through a registry of decoders.

## Modules

- `Results` holds `Option` and `Result`. `Docs` holds the document tree that
  stands in for serde values, plus a strict total order on documents. That order
  stands in for the `Ord` bound a `BTreeMap` key needs. `SortedMaps` is a
  `BTreeMap` as a list of entries in ascending key order.
- `Worlds` is the entity store. It maps entity ids to component maps and
  optional `Children` lists, and provides `spawn`, component insertion and
  `add_child`.
- `Objects` is the object language, one constructor per kind of `BevyObject`:
  - a component bound to itself (`Leaf`)
  - `Maybe`, `Child`, `ChildUnchecked`, `ChildVec` and `ChildMap`
  - the composite that `bind_object!` generates

  The module also holds the crate's `Error` and the shape each object's
  deserialized type has (`WellTyped`).
- `Extractors` gives each extractor's `to_ser` as a function of the results its
  children produced. The contracts say what the result is by child index:
  first error, first match, the only match, last value per key.
- `Project` is `to_ser` for every object, with properties of the projection.
- `Materialize` is `from_de` for every object, with what a write may touch and
  how many children it attaches.
- `Bind` covers both arms of `bind_object!` and `batch!`.
- `TypeTags` covers the registry (`TypeTagServer`), the tagged encoding and
  `TypeTaggedVisitor::visit_map`.
- `Animals` works through the crate's own type-tag test scenario.
- `RoundTrips` proves load-then-save round trips for lists and maps of components kept in children.

## Modelling choices

- **Integers** are unbounded. Nothing in the core does arithmetic.
- **Leaf components.** How a single component converts to and from a document is
  not part of this model. It is the parameter `Leaves`, a pair of function
  values, so no contract depends on it.
- **Failed writes.** `from_de` returns the world together with the error that
  stopped it, because the code does not roll back writes made before an error.
- **Bevy panics.** `entity_mut` panics when the entity is missing. Here that case
  is an `EntityNotFound` error.
- **Input shape.** `from_de` receives a value of the object's `De` type. The
  precondition `WellTyped` stands for that static type.
- **Type names.** `type_name::<T>()` in errors is represented by the object `T`
  itself.
- **Registry scope.** The thread-local registry slot is an explicit
  `Option<Registry>` argument: `None` is outside `scoped`, `Some(r)` is inside.

Two places where the code and its documentation differ; the model follows the
code:

- **`Child<Maybe<T>>`.** The doc example at `main/src/macros.rs:29-31` says it
  finds zero or one `T` among the children. `Maybe` never reports "absent", so
  under `Child` every child is a match. See the findings below.
- **The main component.** The composite's `from_de` writes only its fields. It
  writes the main component only when some field binds it, as `this => Weapon`
  does in the doc example.

## Model

| member | source | states |
|---|---|---|
| `Extractors.MaybeSer` | main/src/extractors.rs:24-26 | never `Ok(None)`; the inner error propagates unchanged; otherwise `Some` of the inner option |
| `Extractors.ChildSer` | main/src/extractors.rs:51-68 | no match gives `None`; exactly one matching child gives that child's result; with several matches the first failing child's error wins, otherwise `MoreThenOne { parent, ty }` |
| `Extractors.ChildUncheckedSer` | main/src/extractors.rs:90-97 | no match gives `None`; otherwise the result of the first child, in list order, that yields a value or an error |
| `Extractors.UncheckedIgnoresLater` | main/src/extractors.rs:92-95 | children after the first match do not change the `ChildUnchecked` result |
| `Extractors.ChildVecSer` | main/src/extractors.rs:122-125 | never `None`; the first failing child's error aborts; otherwise the children's values in list order, skipping children without one |
| `Extractors.ChildMapSer` | main/src/extractors.rs:156-169 | never `None`; children without a key are skipped; the first child with a key error, a value error or a key without a value (`KeyNoValue`) decides the error; otherwise a sorted map whose lookup of each key gives the value of the last child with that key |
| `Extractors.CollectMapSucceeds` | main/src/extractors.rs:168 | collecting entries into the map keeps it sorted, and each key ends with the last value inserted for it |
| `Extractors.FieldsSer` | main/src/macros.rs:118-124 | fields in declaration order: the first field without a value reports its own error or `FieldMissing { field, ty: bound name }`; on success one entry per field, in order, holding that field's value |
| `Extractors.CompositeSer` | main/src/macros.rs:113-127 | `None` exactly when the main component is missing; otherwise the struct of all fields, or the first field failure |
| `SortedMaps.Insert` | main/src/extractors.rs:168 | `BTreeMap::insert` keeps the keys sorted and unique, maps the key to the new value and leaves every other key's value alone |
| `Project.LeafSer` | main/src/macros.rs:58-68 | a component bound to itself projects to `None` exactly when the entity or the component is missing |
| `Project.ToSer` | main/src/extractors.rs:24-170 | `Maybe`, `ChildVec` and `ChildMap` are never absent; a composite is absent exactly when its main component is; for the child extractors a parent missing from the world is `EntityNotFound`, and a parent without `Children` gives `None` (`Child`, `ChildUnchecked`), an empty list (`ChildVec`) or an empty map (`ChildMap`) |
| `Project.ToSerWellTyped` | main/src/macros.rs:86-109 | every document `to_ser` produces has the shape of the object's deserialized type: option, list, sorted map, or the named struct with its fields in order |
| `Project.ChildOfMaybeCountsEveryChild` | main/src/extractors.rs:24-26 | under `Child`, `Maybe<T>` counts every child as a match: two children that do not fail give `MoreThenOne`, even when neither holds a `T`; a parent without `Children` makes it absent, so as a composite field it fails the composite with `FieldMissing` |
| `Project.OptionalChildFindsTheOne` | main/src/macros.rs:29-31 | `Maybe<Child<T>>` gives `None` when the parent has no `Children` or no child holds a `T`, the child's value (or its error) when exactly one does, and with several the first child error or else `MoreThenOne`; a missing parent is `EntityNotFound` |
| `Extractors.CheckedVersusUnchecked` | main/src/extractors.rs:51-97 | `Child` and `ChildUnchecked` agree unless several children match; then `Child` fails with `MoreThenOne` (when none fails) while `ChildUnchecked` succeeds |
| `Extractors.NeverAbsentFieldsNeverMissing` | main/src/macros.rs:119-123 | when no field reports "absent" (as `Maybe`, `ChildVec` and `ChildMap` never do, see `Project.ToSer`) and the main component is present, the composite either succeeds or fails with an error one of its fields raised, never a `FieldMissing` of its own |
| `Materialize.FromDeExtends` | main/src/extractors.rs:28-180 | every `from_de` writes only into its entity and entities it spawns; the entity keeps its children and gains only freshly spawned ones, in spawn order; the child extractors (`Child`, `ChildUnchecked`, `ChildVec`, `ChildMap`) leave the entity's own components as they were |
| `Materialize.MaybeFromDe` | main/src/extractors.rs:28-32 | `None` leaves the world as it was; `Some(d)` writes exactly what the inner object writes, into the same entity |
| `Materialize.SpawnChildExtends` | main/src/extractors.rs:70-75 | `Child` and `ChildUnchecked` spawn one entity and write into it with the inner `from_de`; an inner failure is returned as it is, with the child left unattached; after an inner success the child becomes the parent's last child exactly when the parent exists in the world the inner write left (otherwise `EntityNotFound`); every other entity is as the inner write left it, and the parent keeps its components |
| `Materialize.SpawnItemsExtends` | main/src/extractors.rs:128-135 | `ChildVec` attaches one fresh child per item in item order; on failure fewer children than items are attached; the parent keeps its components |
| `Materialize.SpawnEntryExtends` | main/src/extractors.rs:173-178 | one map entry: the key's `from_de` and then the value's write into the same spawned entity; a key failure is returned as it is and the value is not written; a value failure is returned as it is; only after both succeed is the entity attached, exactly when the parent exists in the world the two writes left; every other entity is as the two writes left it, and the parent keeps its components |
| `Materialize.SpawnEntriesExtends` | main/src/extractors.rs:172-180 | `ChildMap` attaches one fresh child per entry in ascending key order; on failure fewer children than entries are attached; the parent keeps its components |
| `Materialize.ApplyFieldsExtends` | main/src/macros.rs:129-132 | the composite's fields all write into the same entity, touching nothing else but spawned entities |
| `Materialize.CompositeFromDeSteps` | main/src/macros.rs:130 | the composite's `from_de` runs its first field and, only if that succeeded, the remaining fields in declaration order |
| `SortedMaps.SortedExtensional` | main/src/extractors.rs:168 | two `BTreeMap`s that give the same value for every key are the same map |
| `Extractors.LastValueDistinct` | main/src/extractors.rs:159-169 | when the children carry the entries of a sorted map one per child, no child fails and last-wins collection gives back each key's own value |
| `RoundTrips.LeafItemsWritten` | main/src/extractors.rs:128-135 | a successful `ChildVec` load of components appends one child per item, in item order, and child `j` holds the component decoded from item `j` |
| `RoundTrips.ChildVecLeafRoundTrip` | main/src/extractors.rs:118-135 | loading a list of components into a parent without children and saving it again gives the same list, when the component's save inverts its load |
| `RoundTrips.LeafEntriesWritten` | main/src/extractors.rs:172-180 | a successful `ChildMap` load appends one child per entry, in key order, holding the key's component and the value's component |
| `RoundTrips.CollectSortedEntries` | main/src/extractors.rs:156-169 | children carrying a sorted map's entries, one per child, collect back into exactly that map |
| `RoundTrips.ChildMapLeafRoundTrip` | main/src/extractors.rs:152-180 | loading a map into a parent without children and saving it again gives the same map, when key and value are two different components whose saves invert their loads |
| `Bind.BoundObjectPresentIffMain` | main/src/macros.rs:113-117 | for either arm, the bound object is present on an entity exactly when the entity holds the main component |
| `Bind.CompositeDocument` | main/src/macros.rs:118-126 | a composite's document is the struct named by the bound name with one entry per declared field, in order, each holding that field's value |
| `Bind.BatchOf` | main/src/macros.rs:148-158 | one type gives itself, two give `Join<a, b>`, more give `Join<first, batch!(rest)>`: right-nested, leaves in the original order |
| `Bind.RightNestedIsBatchOf` | main/src/macros.rs:155-157 | every right-nested `Join` is the `batch!` of its leaves |
| `TypeTags.Get` | main/src/typetagged.rs:172-175 | a decoder is found exactly when one is registered under that trait and name |
| `TypeTags.Clear` | main/src/typetagged.rs:177-179 | after `clear` every lookup finds nothing |
| `TypeTags.Register` | main/src/typetagged.rs:181-187 | after registering, the name resolves to the new decoder under that trait; every other (trait, name) resolves as before |
| `TypeTags.GetAfterRegisterAll` | main/src/typetagged.rs:181-187 | after several registrations each name resolves to the last decoder registered under it; other traits do not see them |
| `TypeTags.Encode` | main/src/typetagged.rs:190-196 | a single-entry map from the value's name to its untagged value; no registry is involved |
| `TypeTags.Decode` | main/src/typetagged.rs:214-233 | checks in order: no entry is "expected externally tagged value", no scope is the "outside the `save` context" error, an unknown name is "unregistered type-tag" naming it; otherwise the registered decoder's result on the entry's value |
| `TypeTags.DecodeErrorText` | main/src/typetagged.rs:215-231 | a map without entries reports "expected externally tagged value", an unbound scope reports the "outside the `save` context" text, and an unregistered tag reports "unregistered type-tag" followed by the tag |
| `TypeTags.ScopeBoundary` | main/src/typetagged.rs:63-65 | outside a scope every tagged document is rejected with the "outside the `save` context" error; inside `scoped` decoding sees the registry bound. The thread-local scope is modelled only as the explicit `Option<Registry>` argument, so `Scoped` is just "pass `Some(registry)`" and nothing further is to be proved about it |
| `TypeTags.RoundTrip` | main/src/typetagged.rs:225-232 | with an inverting decoder registered, decoding an encoded value gives it back, and encoding it again gives the same document |
| `TypeTags.RoundTripRegistered` | main/tests/typetag.rs:108-120 | the same round trip for a registry built by registering variants in order |
| `Animals.SavedAnimalsLoadBack` | main/tests/typetag.rs:78-120 | the three animals save to the expected one-entry maps and load back; without the scope, under another trait, after `clear` or from an empty map, loading fails with the matching error |

## Left out

- The save/load driver (`save`, `load`, `despawn_bound_objects`) and `Join`'s own projection are not part of this model. `batch!` is modelled as the type it builds.
- `main/src/asset.rs`, `benches/bench.rs` and the root `src/lib.rs` are not part of this model: thin asset wrappers, benchmarks, and a different API version.
- Component-level conversion of a single component is a parameter (`Leaves`). The blanket implementation for components lives outside the modelled files.
- Serde formats, `erased_serde` and serde attributes (`flatten`, `transparent`, `skip_serializing_if`, renames) are not modelled. A composite is always a struct document named by its bound name.
- The `Ord` of a map key's Rust type is replaced by one fixed strict total order on documents. Only "sorted, unique keys, last insert wins" is used.
- The `Parent` component that `add_child` also maintains is not modelled. Every child attached by `from_de` is freshly spawned, so it never had a parent to remove.
- Bevy panics (`entity_mut` on a missing parent) are modelled as an `EntityNotFound` failure rather than an abort.
- A general "load then save gives the same document" law for the projection is stated only for `ChildVec` and `ChildMap` of components (module `RoundTrips`), loaded into a parent without children. The general law needs the leaf conversions to be inverse, which the crate leaves to its users (see the note on `main/src/macros.rs:44-55` about choosing serde attributes that round-trip). It also needs the components one object writes to be disjoint, which nothing in the crate checks. Pre-existing children would also be read back.
- `TypeTags.Decode`: only the first map entry is read; whether trailing entries are an error is up to the format.
- `TypeTags.Encode`: errors raised while serializing the inner value are not modelled; encoding is total.
- `Materialize.SpawnItemsExtends`: on failure it states only that fewer children than items were attached, not which item failed.
- `Materialize.SpawnEntriesExtends`: likewise on failure it does not name the failing entry.
- Thread-local scoping and `TypeId` downcasts are not modelled. The registry is passed explicitly and decoders are stored typed by trait, so a downcast cannot fail.
- Error display strings of the crate's own `Error` are not modelled. The decode errors are constructors, and `TypeTags.Message` gives each one the text `main/src/typetagged.rs` prints for it (`TypeTags.DecodeErrorText`). The text for a document that is not a map is the format's, so only its expected-value part is modelled.

## Findings

| source | as written | input that shows it | evidently intended | confidence | as-written member | corrected member |
|---|---|---|---|---|---|---|
| main/src/macros.rs:29-31 | the documented field `forge => Child<Maybe<Forge>>` is said to find zero or one `Forge` among the children (and fail on several), but `Maybe` is never absent, so `Child` sees every child as a match, and a parent without `Children` makes the field absent | a parent with two children, only one of which holds a `Forge`: the field fails with `MoreThenOne`; a parent with no `Children` component: the bound object fails with `FieldMissing("forge", name)` | an optional single `Forge` child, which `Maybe<Child<Forge>>` computes | not executed; the proofs show the disagreement for every such input | `Project.ChildOfMaybeCountsEveryChild` | `Project.OptionalChildFindsTheOne` |

=== FILE: animals.dfy ===
/** The trait-object scenario of the crate's own type-tag test: three animals,
    each saved as a one-entry map from its name to its untagged value, and
    loaded back through the registry the three registrations build. */
module Animals {
  import opened Results
  import opened Docs
  import opened TypeTags

  const AnimalTrait: TraitId := "Box<dyn Animal>"

  /** `Dog { name: String }`. */
  function DecodeDog(x: Doc): Result<Tagged, string>
  {
    if x.Struct? && x.name == "Dog" && |x.fields| == 1 && x.fields[0].0 == "name" && x.fields[0].1.Str?
    then Ok(Tagged("Dog", x)) else Err("invalid type, expected struct Dog")
  }

  /** `Bird(String)`, a newtype struct, serialized as its string. */
  function DecodeBird(x: Doc): Result<Tagged, string>
  {
    if x.Str? then Ok(Tagged("Bird", x)) else Err("invalid type, expected struct Bird")
  }

  /** `Turtle`, a unit struct. */
  function DecodeTurtle(x: Doc): Result<Tagged, string>
  {
    if x == Unit then Ok(Tagged("Turtle", x)) else Err("invalid type, expected unit struct Turtle")
  }

  /** Registered in the test's order: `Bird`, `Dog`, `Turtle`. */
  function Registered(): Registry
  {
    RegisterAll(EmptyRegistry, AnimalTrait,
      [Variant("Bird", DecodeBird), Variant("Dog", DecodeDog), Variant("Turtle", DecodeTurtle)])
  }

  const Rex: Tagged := Tagged("Dog", Struct("Dog", [("name", Str("Rex"))]))
  const Bevy: Tagged := Tagged("Bird", Str("bevy"))
  const Shell: Tagged := Tagged("Turtle", Unit)

  /** The saved documents are the expected single-entry maps, and loading each
      inside the scope gives the animal back; outside the scope, under another
      trait, or after `clear`, loading fails with the matching error. */
  lemma SavedAnimalsLoadBack()
    ensures Encode(Rex) == Map([(Str("Dog"), Struct("Dog", [("name", Str("Rex"))]))])
    ensures Encode(Bevy) == Map([(Str("Bird"), Str("bevy"))])
    ensures Encode(Shell) == Map([(Str("Turtle"), Unit)])
    ensures forall v :: v in [Rex, Bevy, Shell] ==> Decode(Some(Registered()), AnimalTrait, Encode(v)) == Ok(v)
    ensures Decode(None, AnimalTrait, Encode(Rex)) == Err(OutsideScope)
    ensures Decode(Some(Registered()), "Box<dyn Plant>", Encode(Rex)) == Err(Unregistered("Dog"))
    ensures Decode(Some(Clear(Registered())), AnimalTrait, Encode(Bevy)) == Err(Unregistered("Bird"))
    ensures Decode(Some(Registered()), AnimalTrait, Map([])) == Err(NoTag)
  {
    var vs := [Variant("Bird", DecodeBird), Variant("Dog", DecodeDog), Variant("Turtle", DecodeTurtle)];
    RoundTripRegistered(EmptyRegistry, AnimalTrait, vs, Rex, 1);
    RoundTripRegistered(EmptyRegistry, AnimalTrait, vs, Bevy, 0);
    RoundTripRegistered(EmptyRegistry, AnimalTrait, vs, Shell, 2);
    GetAfterRegisterAll(EmptyRegistry, AnimalTrait, vs, "Box<dyn Plant>", "Dog");
  }
}

=== FILE: bind.dfy ===
/** `bind_object!` and `batch!`: the two ways a component gets a bound object,
    and the grouping of several bound types into one right-nested `Join`. */
module Bind {
  import opened Results
  import opened Docs
  import opened Worlds
  import opened Objects
  import opened Extractors
  import opened Project

  /** `impl BindBevyObject for Main`: the bound object and `name()`. */
  datatype Binding = Binding(main: CompId, name: string, bound: Obj)

  /** `bind_object!(Main as "name")`: the component is its own object. */
  function BindSimple(main: CompId, name: string): (b: Binding)
    ensures b.main == main && b.name == name && b.bound == Leaf(main)
  {
    Binding(main, name, Leaf(main))
  }

  /** `bind_object!(Main as "name" { field => Ty, .. })`: the generated composite. */
  function BindFields(main: CompId, name: string, fields: seq<Field>): (b: Binding)
    ensures b.main == main && b.name == name && b.bound == Composite(main, name, fields)
  {
    Binding(main, name, Composite(main, name, fields))
  }

  /** Either arm: the bound object is present on an entity exactly when the
      entity carries the main component. */
  lemma BoundObjectPresentIffMain(L: Leaves, w: World, b: Binding, e: EntityId)
    requires b == BindSimple(b.main, b.name) || exists fs :: b == BindFields(b.main, b.name, fs)
    ensures ToSer(L, w, b.bound, e) == Ok(None) <==> !HasComponent(w, e, b.main)
  {
  }

  /** A composite document: the struct carries the bound name and one entry
      per declared field, in declaration order, each holding that field's value. */
  lemma CompositeDocument(L: Leaves, w: World, main: CompId, name: string, fields: seq<Field>, e: EntityId)
    ensures var r := ToSer(L, w, BindFields(main, name, fields).bound, e);
      r.Ok? && r.value.Some? ==>
        var d := r.value.value;
        && d.Struct? && d.name == name && |d.fields| == |fields|
        && forall i :: 0 <= i < |fields| ==>
             d.fields[i].0 == fields[i].name && ToSer(L, w, fields[i].obj, e) == Ok(Some(d.fields[i].1))
  {
    var o := Composite(main, name, fields);
    var rs := FieldProbes(L, w, o, e);
    if exists i :: 0 <= i < |rs| && !Present(rs[i]) {
      var i :| 0 <= i < |rs| && !Present(rs[i]);
      FirstAbsentExists(rs, i);
    }
  }

  // ---------------------------------------------------------------------------
  // batch!
  // ---------------------------------------------------------------------------

  /** A type built by `batch!`: a single type or `Join<A, B>`. */
  datatype Batch<T> = One(ty: T) | Join(first: Batch<T>, rest: Batch<T>)

  /** The types a batch saves, left to right. */
  function Flatten<T>(b: Batch<T>): (ts: seq<T>)
    ensures |ts| >= 1
  {
    match b
    case One(t) => [t]
    case Join(x, y) => Flatten(x) + Flatten(y)
  }

  /** Every `Join` has a single type on its left. */
  predicate RightNested<T>(b: Batch<T>)
  {
    match b
    case One(_) => true
    case Join(x, y) => x.One? && RightNested(y)
  }

  /** `batch!(a)`, `batch!(a, b)` and `batch!(first, rest..)`. */
  function BatchOf<T>(ts: seq<T>): (b: Batch<T>)
    requires |ts| >= 1
    ensures Flatten(b) == ts && RightNested(b)
    ensures |ts| == 1 ==> b == One(ts[0])
    ensures |ts| == 2 ==> b == Join(One(ts[0]), One(ts[1]))
    decreases |ts|
  {
    if |ts| == 1 then One(ts[0])
    else if |ts| == 2 then Join(One(ts[0]), One(ts[1]))
    else
      var rest := BatchOf(ts[1..]);
      assert [ts[0]] + ts[1..] == ts;
      Join(One(ts[0]), rest)
  }

  /** A right-nested batch is determined by its types: `batch!` is the only
      way to build it. */
  lemma {:induction false} RightNestedIsBatchOf<T>(b: Batch<T>)
    requires RightNested(b)
    ensures b == BatchOf(Flatten(b))
  {
    match b
    case One(_) =>
    case Join(x, y) =>
      RightNestedIsBatchOf(y);
      var ts := Flatten(b);
      assert x == One(x.ty);
      assert Flatten(x) == [x.ty];
      assert ts == Flatten(x) + Flatten(y);
      assert ts[1..] == Flatten(y);
      if |ts| == 2 {
        assert y == One(ts[1]);
      }
  }
}

=== FILE: docs.dfy ===
/** The abstract document tree that stands for every serde data-model value the
    projection produces or consumes, independent of the wire format.

    `Map` is the shape of a `BTreeMap`: its entries are kept in ascending key
    order (see module SortedMaps). The order on documents is the lexicographic
    order of an injective integer encoding `Enc`; it plays the role of the
    `Ord` bound that `ChildMap` puts on its key documents. */
module Docs {
  import opened Results

  datatype Doc =
    | Unit                                      // `()` / `null`
    | Int(number: int)
    | Str(text: string)
    | NoneDoc                                   // `Option::None`
    | SomeDoc(inner: Doc)                       // `Option::Some`
    | Seq(items: seq<Doc>)                      // `Vec`
    | Map(entries: seq<(Doc, Doc)>)             // `BTreeMap`, ascending keys
    | Struct(name: string, fields: seq<(string, Doc)>)  // a named struct

  /** `Option<Doc>` as a document: the serialized form of a `Maybe` field. */
  function OptionDoc(o: Option<Doc>): Doc
  {
    match o
    case None => NoneDoc
    case Some(d) => SomeDoc(d)
  }

  // ---------------------------------------------------------------------------
  // Injective encoding into integer sequences
  // ---------------------------------------------------------------------------

  function EncStr(s: string): (r: seq<int>)
    ensures |r| == 1 + |s|
  {
    [|s|] + seq(|s|, i requires 0 <= i < |s| => s[i] as int)
  }

  function Enc(d: Doc): seq<int>
  {
    match d
    case Unit => [0]
    case Int(n) => [1, n]
    case Str(s) => [2] + EncStr(s)
    case NoneDoc => [3]
    case SomeDoc(x) => [4] + Enc(x)
    case Seq(xs) => [5, |xs|] + EncDocs(xs)
    case Map(es) => [6, |es|] + EncPairs(es)
    case Struct(n, fs) => [7] + EncStr(n) + [|fs|] + EncFields(fs)
  }

  function EncDocs(xs: seq<Doc>): seq<int>
  {
    if |xs| == 0 then [] else Enc(xs[0]) + EncDocs(xs[1..])
  }

  function EncPair(p: (Doc, Doc)): seq<int>
  {
    Enc(p.0) + Enc(p.1)
  }

  function EncPairs(es: seq<(Doc, Doc)>): seq<int>
  {
    if |es| == 0 then [] else EncPair(es[0]) + EncPairs(es[1..])
  }

  function EncField(f: (string, Doc)): seq<int>
  {
    EncStr(f.0) + Enc(f.1)
  }

  function EncFields(fs: seq<(string, Doc)>): seq<int>
  {
    if |fs| == 0 then [] else EncField(fs[0]) + EncFields(fs[1..])
  }

  /** If two sequences with an equal-length head agree, heads and tails agree. */
  lemma SplitEqual(x: seq<int>, s: seq<int>, y: seq<int>, t: seq<int>)
    requires x + s == y + t
    requires |x| == |y|
    ensures x == y && s == t
  {
    assert x == (x + s)[..|x|];
    assert y == (y + t)[..|y|];
    assert s == (x + s)[|x|..];
    assert t == (y + t)[|y|..];
  }

  lemma {:induction false} EncStrPrefixFree(a: string, s: seq<int>, b: string, t: seq<int>)
    requires EncStr(a) + s == EncStr(b) + t
    ensures a == b && s == t
  {
    assert (EncStr(a) + s)[0] == |a|;
    assert (EncStr(b) + t)[0] == |b|;
    SplitEqual(EncStr(a), s, EncStr(b), t);
    forall i | 0 <= i < |a|
      ensures a[i] == b[i]
    {
      assert EncStr(a)[1 + i] == a[i] as int;
      assert EncStr(b)[1 + i] == b[i] as int;
    }
  }

  /** The constructor tag that every encoding starts with. */
  function Tag(d: Doc): int
  {
    match d
    case Unit => 0
    case Int(_) => 1
    case Str(_) => 2
    case NoneDoc => 3
    case SomeDoc(_) => 4
    case Seq(_) => 5
    case Map(_) => 6
    case Struct(_, _) => 7
  }

  lemma SameTag(a: Doc, s: seq<int>, b: Doc, t: seq<int>)
    requires Enc(a) + s == Enc(b) + t
    ensures Tag(a) == Tag(b)
  {
    assert Enc(a)[0] == Tag(a);
    assert Enc(b)[0] == Tag(b);
    assert (Enc(a) + s)[0] == Enc(a)[0];
    assert (Enc(b) + t)[0] == Enc(b)[0];
  }

  /** `Enc` is prefix-free: no encoding is a proper prefix of another. */
  lemma {:induction false} EncPrefixFree(a: Doc, s: seq<int>, b: Doc, t: seq<int>)
    requires Enc(a) + s == Enc(b) + t
    ensures a == b && s == t
    decreases a, 1
  {
    SameTag(a, s, b, t);
    match a
    case Unit =>
      SplitEqual(Enc(a), s, Enc(b), t);
    case Int(_) =>
      SplitEqual(Enc(a), s, Enc(b), t);
    case NoneDoc =>
      SplitEqual(Enc(a), s, Enc(b), t);
    case Str(_) =>
      StrPrefixFree(a, s, b, t);
    case SomeDoc(_) =>
      SomePrefixFree(a, s, b, t);
    case Seq(_) =>
      SeqPrefixFree(a, s, b, t);
    case Map(_) =>
      MapPrefixFree(a, s, b, t);
    case Struct(_, _) =>
      StructPrefixFree(a, s, b, t);
  }

  lemma StrPrefixFree(a: Doc, s: seq<int>, b: Doc, t: seq<int>)
    requires a.Str? && b.Str?
    requires Enc(a) + s == Enc(b) + t
    ensures a == b && s == t
  {
    assert Enc(a) + s == [2] + (EncStr(a.text) + s);
    assert Enc(b) + t == [2] + (EncStr(b.text) + t);
    SplitEqual([2], EncStr(a.text) + s, [2], EncStr(b.text) + t);
    EncStrPrefixFree(a.text, s, b.text, t);
  }

  lemma {:induction false} SomePrefixFree(a: Doc, s: seq<int>, b: Doc, t: seq<int>)
    requires a.SomeDoc? && b.SomeDoc?
    requires Enc(a) + s == Enc(b) + t
    ensures a == b && s == t
    decreases a, 0
  {
    assert Enc(a) + s == [4] + (Enc(a.inner) + s);
    assert Enc(b) + t == [4] + (Enc(b.inner) + t);
    SplitEqual([4], Enc(a.inner) + s, [4], Enc(b.inner) + t);
    EncPrefixFree(a.inner, s, b.inner, t);
  }

  lemma {:induction false} SeqPrefixFree(a: Doc, s: seq<int>, b: Doc, t: seq<int>)
    requires a.Seq? && b.Seq?
    requires Enc(a) + s == Enc(b) + t
    ensures a == b && s == t
    decreases a, 0
  {
    var xs, ys := a.items, b.items;
    assert Enc(a) + s == [5, |xs|] + (EncDocs(xs) + s);
    assert Enc(b) + t == [5, |ys|] + (EncDocs(ys) + t);
    assert (Enc(a) + s)[1] == |xs|;
    assert (Enc(b) + t)[1] == |ys|;
    SplitEqual([5, |xs|], EncDocs(xs) + s, [5, |ys|], EncDocs(ys) + t);
    EncDocsPrefixFree(xs, s, ys, t);
  }

  lemma {:induction false} MapPrefixFree(a: Doc, s: seq<int>, b: Doc, t: seq<int>)
    requires a.Map? && b.Map?
    requires Enc(a) + s == Enc(b) + t
    ensures a == b && s == t
    decreases a, 0
  {
    var es, fs := a.entries, b.entries;
    assert Enc(a) + s == [6, |es|] + (EncPairs(es) + s);
    assert Enc(b) + t == [6, |fs|] + (EncPairs(fs) + t);
    assert (Enc(a) + s)[1] == |es|;
    assert (Enc(b) + t)[1] == |fs|;
    SplitEqual([6, |es|], EncPairs(es) + s, [6, |fs|], EncPairs(fs) + t);
    EncPairsPrefixFree(es, s, fs, t);
  }

  lemma {:induction false} StructPrefixFree(a: Doc, s: seq<int>, b: Doc, t: seq<int>)
    requires a.Struct? && b.Struct?
    requires Enc(a) + s == Enc(b) + t
    ensures a == b && s == t
    decreases a, 0
  {
    var n, fs, m, gs := a.name, a.fields, b.name, b.fields;
    var s1, t1 := [|fs|] + (EncFields(fs) + s), [|gs|] + (EncFields(gs) + t);
    assert Enc(a) + s == [7] + (EncStr(n) + s1);
    assert Enc(b) + t == [7] + (EncStr(m) + t1);
    SplitEqual([7], EncStr(n) + s1, [7], EncStr(m) + t1);
    EncStrPrefixFree(n, s1, m, t1);
    assert s1[0] == |fs|;
    assert t1[0] == |gs|;
    SplitEqual([|fs|], EncFields(fs) + s, [|gs|], EncFields(gs) + t);
    EncFieldsPrefixFree(fs, s, gs, t);
  }

  lemma {:induction false} EncDocsPrefixFree(xs: seq<Doc>, s: seq<int>, ys: seq<Doc>, t: seq<int>)
    requires |xs| == |ys|
    requires EncDocs(xs) + s == EncDocs(ys) + t
    ensures xs == ys && s == t
    decreases xs, 0
  {
    if |xs| > 0 {
      assert EncDocs(xs) + s == Enc(xs[0]) + (EncDocs(xs[1..]) + s);
      assert EncDocs(ys) + t == Enc(ys[0]) + (EncDocs(ys[1..]) + t);
      EncPrefixFree(xs[0], EncDocs(xs[1..]) + s, ys[0], EncDocs(ys[1..]) + t);
      EncDocsPrefixFree(xs[1..], s, ys[1..], t);
      assert xs == [xs[0]] + xs[1..];
      assert ys == [ys[0]] + ys[1..];
    } else {
      assert EncDocs([]) + s == s;
    }
  }

  lemma {:induction false} EncPairPrefixFree(p: (Doc, Doc), s: seq<int>, q: (Doc, Doc), t: seq<int>)
    requires EncPair(p) + s == EncPair(q) + t
    ensures p == q && s == t
    decreases p, 0
  {
    assert EncPair(p) + s == Enc(p.0) + (Enc(p.1) + s);
    assert EncPair(q) + t == Enc(q.0) + (Enc(q.1) + t);
    EncPrefixFree(p.0, Enc(p.1) + s, q.0, Enc(q.1) + t);
    EncPrefixFree(p.1, s, q.1, t);
  }

  lemma {:induction false} EncPairsPrefixFree(es: seq<(Doc, Doc)>, s: seq<int>, fs: seq<(Doc, Doc)>, t: seq<int>)
    requires |es| == |fs|
    requires EncPairs(es) + s == EncPairs(fs) + t
    ensures es == fs && s == t
    decreases es, 0
  {
    if |es| > 0 {
      assert EncPairs(es) + s == EncPair(es[0]) + (EncPairs(es[1..]) + s);
      assert EncPairs(fs) + t == EncPair(fs[0]) + (EncPairs(fs[1..]) + t);
      EncPairPrefixFree(es[0], EncPairs(es[1..]) + s, fs[0], EncPairs(fs[1..]) + t);
      EncPairsPrefixFree(es[1..], s, fs[1..], t);
      assert es == [es[0]] + es[1..];
      assert fs == [fs[0]] + fs[1..];
    } else {
      assert EncPairs([]) + s == s;
    }
  }

  lemma {:induction false} EncFieldPrefixFree(p: (string, Doc), s: seq<int>, q: (string, Doc), t: seq<int>)
    requires EncField(p) + s == EncField(q) + t
    ensures p == q && s == t
    decreases p, 0
  {
    assert EncField(p) + s == EncStr(p.0) + (Enc(p.1) + s);
    assert EncField(q) + t == EncStr(q.0) + (Enc(q.1) + t);
    EncStrPrefixFree(p.0, Enc(p.1) + s, q.0, Enc(q.1) + t);
    EncPrefixFree(p.1, s, q.1, t);
  }

  lemma {:induction false} EncFieldsPrefixFree(fs: seq<(string, Doc)>, s: seq<int>, gs: seq<(string, Doc)>, t: seq<int>)
    requires |fs| == |gs|
    requires EncFields(fs) + s == EncFields(gs) + t
    ensures fs == gs && s == t
    decreases fs, 0
  {
    if |fs| > 0 {
      assert EncFields(fs) + s == EncField(fs[0]) + (EncFields(fs[1..]) + s);
      assert EncFields(gs) + t == EncField(gs[0]) + (EncFields(gs[1..]) + t);
      EncFieldPrefixFree(fs[0], EncFields(fs[1..]) + s, gs[0], EncFields(gs[1..]) + t);
      EncFieldsPrefixFree(fs[1..], s, gs[1..], t);
      assert fs == [fs[0]] + fs[1..];
      assert gs == [gs[0]] + gs[1..];
    } else {
      assert EncFields([]) + s == s;
    }
  }

  /** Distinct documents have distinct encodings. */
  lemma EncInjective(a: Doc, b: Doc)
    requires Enc(a) == Enc(b)
    ensures a == b
  {
    assert Enc(a) + [] == Enc(b) + [];
    EncPrefixFree(a, [], b, []);
  }

  // ---------------------------------------------------------------------------
  // The key order
  // ---------------------------------------------------------------------------

  /** Lexicographic order on integer sequences; a proper prefix is smaller. */
  predicate LexLess(a: seq<int>, b: seq<int>)
    decreases |a|
  {
    |b| > 0 && (|a| == 0 || a[0] < b[0] || (a[0] == b[0] && LexLess(a[1..], b[1..])))
  }

  lemma {:induction false} LexIrreflexive(a: seq<int>)
    ensures !LexLess(a, a)
    decreases |a|
  {
    if |a| > 0 {
      LexIrreflexive(a[1..]);
    }
  }

  lemma {:induction false} LexTransitive(a: seq<int>, b: seq<int>, c: seq<int>)
    requires LexLess(a, b) && LexLess(b, c)
    ensures LexLess(a, c)
    decreases |a|
  {
    if |a| > 0 && a[0] == b[0] && b[0] == c[0] {
      LexTransitive(a[1..], b[1..], c[1..]);
    }
  }

  lemma {:induction false} LexTotal(a: seq<int>, b: seq<int>)
    requires a != b
    ensures LexLess(a, b) || LexLess(b, a)
    decreases |a|
  {
    if |a| > 0 && |b| > 0 && a[0] == b[0] {
      assert a == [a[0]] + a[1..];
      assert b == [b[0]] + b[1..];
      LexTotal(a[1..], b[1..]);
    }
  }

  /** The strict total order on documents used for `BTreeMap` keys. */
  predicate DocLess(a: Doc, b: Doc)
  {
    LexLess(Enc(a), Enc(b))
  }

  lemma DocLessIrreflexive(a: Doc)
    ensures !DocLess(a, a)
  {
    LexIrreflexive(Enc(a));
  }

  lemma DocLessTransitive(a: Doc, b: Doc, c: Doc)
    requires DocLess(a, b) && DocLess(b, c)
    ensures DocLess(a, c)
  {
    LexTransitive(Enc(a), Enc(b), Enc(c));
  }

  lemma DocLessTotal(a: Doc, b: Doc)
    requires a != b
    ensures DocLess(a, b) || DocLess(b, a)
  {
    if Enc(a) == Enc(b) {
      EncInjective(a, b);
    }
    LexTotal(Enc(a), Enc(b));
  }
}

=== FILE: extractors.dfy ===
/** The child extractors and the composite field collector, as functions of the
    per-child (or per-field) results their `to_ser` combines. Every function
    here receives the probes `T::to_ser(world, c)` for the children `c` in
    `Children` order, so its meaning does not depend on how the probes were
    obtained. The contracts characterise each result by child index, without
    the iterator adapters the code goes through. */
module Extractors {
  import opened Results
  import opened Docs
  import opened SortedMaps
  import opened Objects

  // ---------------------------------------------------------------------------
  // Matches: `filter_map(|r| r.transpose())`
  // ---------------------------------------------------------------------------

  /** A probe that `transpose` keeps: a value or an error. */
  predicate Matched(r: Probe)
  {
    !(r.Ok? && r.value.None?)
  }

  function Transpose(r: Probe): Result<Doc, Error>
    requires Matched(r)
  {
    if r.Ok? then Ok(r.value.value) else Err(r.error)
  }

  /** The iterator `children.iter().filter_map(|c| T::to_ser(world, *c).transpose())`. */
  function Matches(rs: seq<Probe>): (ms: seq<Result<Doc, Error>>)
    ensures |ms| <= |rs|
  {
    if |rs| == 0 then []
    else (if Matched(rs[0]) then [Transpose(rs[0])] else []) + Matches(rs[1..])
  }

  ghost predicate NoMatch(rs: seq<Probe>)
  {
    forall i :: 0 <= i < |rs| ==> !Matched(rs[i])
  }

  /** Child `i` is the only child that matches. */
  ghost predicate OnlyMatch(rs: seq<Probe>, i: int)
  {
    0 <= i < |rs| && Matched(rs[i]) && forall j :: 0 <= j < |rs| && j != i ==> !Matched(rs[j])
  }

  ghost predicate SeveralMatches(rs: seq<Probe>)
  {
    exists i, j :: 0 <= i < j < |rs| && Matched(rs[i]) && Matched(rs[j])
  }

  /** Child `i` matches and no earlier child does. */
  ghost predicate FirstMatch(rs: seq<Probe>, i: int)
  {
    0 <= i < |rs| && Matched(rs[i]) && forall j :: 0 <= j < i ==> !Matched(rs[j])
  }

  /** Child `i` failed and no earlier child did. */
  ghost predicate FirstError(rs: seq<Probe>, i: int)
  {
    0 <= i < |rs| && rs[i].Err? && forall j :: 0 <= j < i ==> rs[j].Ok?
  }

  ghost predicate NoError(rs: seq<Probe>)
  {
    forall i :: 0 <= i < |rs| ==> rs[i].Ok?
  }

  lemma {:induction false} MatchesEmpty(rs: seq<Probe>)
    ensures |Matches(rs)| == 0 <==> NoMatch(rs)
  {
    if |rs| > 0 {
      MatchesEmpty(rs[1..]);
      if NoMatch(rs[1..]) && !Matched(rs[0]) {
        forall i | 0 <= i < |rs| ensures !Matched(rs[i]) {
          if i > 0 { assert rs[i] == rs[1..][i - 1]; }
        }
      }
      if NoMatch(rs) {
        forall i | 0 <= i < |rs[1..]| ensures !Matched(rs[1..][i]) {
          assert rs[1..][i] == rs[i + 1];
        }
      }
    }
  }

  /** The first element of `Matches` comes from the first matching child. */
  lemma {:induction false} MatchesHead(rs: seq<Probe>, i: int)
    requires FirstMatch(rs, i)
    ensures |Matches(rs)| > 0 && Matches(rs)[0] == Transpose(rs[i])
    decreases |rs|
  {
    if i > 0 {
      assert FirstMatch(rs[1..], i - 1) by {
        forall j | 0 <= j < i - 1 ensures !Matched(rs[1..][j]) {
          assert rs[1..][j] == rs[j + 1];
        }
      }
      MatchesHead(rs[1..], i - 1);
    }
  }

  /** With a single matching child, `Matches` is exactly that child's result. */
  lemma {:induction false} MatchesOnly(rs: seq<Probe>, i: int)
    requires OnlyMatch(rs, i)
    ensures Matches(rs) == [Transpose(rs[i])]
    decreases |rs|
  {
    if i > 0 {
      assert OnlyMatch(rs[1..], i - 1) by {
        forall j | 0 <= j < |rs[1..]| && j != i - 1 ensures !Matched(rs[1..][j]) {
          assert rs[1..][j] == rs[j + 1];
        }
      }
      MatchesOnly(rs[1..], i - 1);
    } else {
      assert NoMatch(rs[1..]) by {
        forall j | 0 <= j < |rs[1..]| ensures !Matched(rs[1..][j]) {
          assert rs[1..][j] == rs[j + 1];
        }
      }
      MatchesEmpty(rs[1..]);
    }
  }

  lemma {:induction false} MatchesSeveral(rs: seq<Probe>)
    ensures |Matches(rs)| >= 2 <==> SeveralMatches(rs)
    decreases |rs|
  {
    if |rs| > 0 {
      MatchesSeveral(rs[1..]);
      MatchesEmpty(rs[1..]);
      if SeveralMatches(rs[1..]) {
        var i, j :| 0 <= i < j < |rs[1..]| && Matched(rs[1..][i]) && Matched(rs[1..][j]);
        assert rs[i + 1] == rs[1..][i] && rs[j + 1] == rs[1..][j];
      }
      if Matched(rs[0]) && !NoMatch(rs[1..]) {
        var j :| 0 <= j < |rs[1..]| && Matched(rs[1..][j]);
        assert rs[j + 1] == rs[1..][j];
      }
      if SeveralMatches(rs) {
        var i, j :| 0 <= i < j < |rs| && Matched(rs[i]) && Matched(rs[j]);
        if i == 0 {
          assert rs[1..][j - 1] == rs[j];
          assert !NoMatch(rs[1..]);
        } else {
          assert rs[1..][i - 1] == rs[i] && rs[1..][j - 1] == rs[j];
          assert SeveralMatches(rs[1..]);
        }
      }
    }
  }

  /** There are no matches, exactly one, or several. */
  lemma MatchCases(rs: seq<Probe>)
    ensures NoMatch(rs) || SeveralMatches(rs) || exists i :: OnlyMatch(rs, i)
  {
    if !NoMatch(rs) && !SeveralMatches(rs) {
      var i :| 0 <= i < |rs| && Matched(rs[i]);
      assert OnlyMatch(rs, i);
    }
  }

  // ---------------------------------------------------------------------------
  // Iterator adapters
  // ---------------------------------------------------------------------------

  /** `Itertools::at_most_one`: on two or more items the error hands back an
      iterator over all of them, the first two included. */
  function AtMostOne<X>(xs: seq<X>): Result<Option<X>, seq<X>>
  {
    if |xs| == 0 then Ok(None) else if |xs| == 1 then Ok(Some(xs[0])) else Err(xs)
  }

  /** `find_map(Result::err)`. */
  function FindErr(ms: seq<Result<Doc, Error>>): Option<Error>
  {
    if |ms| == 0 then None else if ms[0].Err? then Some(ms[0].error) else FindErr(ms[1..])
  }

  /** `collect::<Result<Vec<_>, _>>()`: stops at the first error. */
  function CollectVec(ms: seq<Result<Doc, Error>>): Result<seq<Doc>, Error>
  {
    if |ms| == 0 then Ok([])
    else if ms[0].Err? then Err(ms[0].error)
    else
      var rest :- CollectVec(ms[1..]);
      Ok([ms[0].value] + rest)
  }

  lemma {:induction false} FindErrOfMatches(rs: seq<Probe>)
    ensures forall i :: FirstError(rs, i) ==> FindErr(Matches(rs)) == Some(rs[i].error)
    ensures NoError(rs) ==> FindErr(Matches(rs)) == None
    decreases |rs|
  {
    if |rs| > 0 {
      FindErrOfMatches(rs[1..]);
      var ms := Matches(rs);
      var tail := Matches(rs[1..]);
      forall i | FirstError(rs, i) ensures FindErr(ms) == Some(rs[i].error) {
        if i > 0 {
          assert FirstError(rs[1..], i - 1) by {
            forall j | 0 <= j < i - 1 ensures rs[1..][j].Ok? { assert rs[1..][j] == rs[j + 1]; }
          }
          if Matched(rs[0]) {
            assert ms == [Transpose(rs[0])] + tail;
            assert ms[1..] == tail;
          } else {
            assert ms == tail;
          }
        }
      }
      if NoError(rs) {
        assert NoError(rs[1..]) by {
          forall j | 0 <= j < |rs[1..]| ensures rs[1..][j].Ok? { assert rs[1..][j] == rs[j + 1]; }
        }
        if Matched(rs[0]) {
          assert ms == [Transpose(rs[0])] + tail;
          assert ms[1..] == tail;
        } else {
          assert ms == tail;
        }
      }
    }
  }

  // ---------------------------------------------------------------------------
  // The extractors
  // ---------------------------------------------------------------------------

  /** `Maybe<T>::to_ser`: `Ok(Some(T::to_ser(..)?))`. */
  function MaybeSer(r: Probe): (m: Probe)
    ensures m != Ok(None)
    ensures r.Err? ==> m == Err(r.error)
    ensures r.Ok? ==> m == Ok(Some(OptionDoc(r.value)))
  {
    var inner :- r;
    Ok(Some(OptionDoc(inner)))
  }

  /** `Child<T>::to_ser` once the parent's `Children` are known. */
  function ChildSer(parent: nat, ty: Obj, rs: seq<Probe>): (r: Probe)
    ensures NoMatch(rs) ==> r == Ok(None)
    ensures forall i :: OnlyMatch(rs, i) ==> r == rs[i]
    ensures SeveralMatches(rs) ==> forall i :: FirstError(rs, i) ==> r == Err(rs[i].error)
    ensures SeveralMatches(rs) && NoError(rs) ==> r == Err(MoreThenOne(parent, ty))
  {
    MatchesEmpty(rs);
    MatchesSeveral(rs);
    FindErrOfMatches(rs);
    assert forall i :: OnlyMatch(rs, i) ==> Matches(rs) == [Transpose(rs[i])] by {
      forall i | OnlyMatch(rs, i) ensures Matches(rs) == [Transpose(rs[i])] {
        MatchesOnly(rs, i);
      }
    }
    var one: Result<Option<Result<Doc, Error>>, seq<Result<Doc, Error>>> := AtMostOne(Matches(rs));
    match one
    case Ok(None) => Ok(None)
    case Ok(Some(Ok(item))) => Ok(Some(item))
    case Ok(Some(Err(err))) => Err(err)
    case Err(rest) =>
      match FindErr(rest)
      case Some(err) => Err(err)
      case None => Err(MoreThenOne(parent, ty))
  }

  /** `ChildUnchecked<T>::to_ser` once the parent's `Children` are known:
      `find_map` over the matches. */
  function ChildUncheckedSer(rs: seq<Probe>): (r: Probe)
    ensures NoMatch(rs) ==> r == Ok(None)
    ensures forall i :: FirstMatch(rs, i) ==> r == rs[i]
  {
    MatchesEmpty(rs);
    assert forall i :: FirstMatch(rs, i) ==> |Matches(rs)| > 0 && Matches(rs)[0] == Transpose(rs[i]) by {
      forall i | FirstMatch(rs, i) ensures |Matches(rs)| > 0 && Matches(rs)[0] == Transpose(rs[i]) {
        MatchesHead(rs, i);
      }
    }
    var ms := Matches(rs);
    if |ms| == 0 then Ok(None)
    else match ms[0]
      case Ok(result) => Ok(Some(result))
      case Err(error) => Err(error)
  }

  /** The documents of the matching children, in child order: the reference
      meaning of `ChildVec`. */
  function SomeValues(rs: seq<Probe>): (ds: seq<Doc>)
    ensures forall k :: 0 <= k < |ds| ==> exists i :: 0 <= i < |rs| && rs[i] == Ok(Some(ds[k]))
    ensures |ds| <= |rs|
  {
    if |rs| == 0 then []
    else
      var rest := SomeValues(rs[1..]);
      assert forall k :: 0 <= k < |rest| ==> exists i :: 0 <= i < |rs| && rs[i] == Ok(Some(rest[k])) by {
        forall k | 0 <= k < |rest| ensures exists i :: 0 <= i < |rs| && rs[i] == Ok(Some(rest[k])) {
          var i :| 0 <= i < |rs[1..]| && rs[1..][i] == Ok(Some(rest[k]));
          assert rs[i + 1] == rs[1..][i];
        }
      }
      if rs[0].Ok? && rs[0].value.Some? then [rs[0].value.value] + rest else rest
  }

  lemma {:induction false} CollectMatches(rs: seq<Probe>)
    ensures forall i :: FirstError(rs, i) ==> CollectVec(Matches(rs)) == Err(rs[i].error)
    ensures NoError(rs) ==> CollectVec(Matches(rs)) == Ok(SomeValues(rs))
    decreases |rs|
  {
    if |rs| > 0 {
      CollectMatches(rs[1..]);
      var ms := Matches(rs);
      var tail := Matches(rs[1..]);
      if Matched(rs[0]) {
        assert ms == [Transpose(rs[0])] + tail;
        assert ms[1..] == tail;
      } else {
        assert ms == tail;
      }
      forall i | FirstError(rs, i) ensures CollectVec(ms) == Err(rs[i].error) {
        if i > 0 {
          assert FirstError(rs[1..], i - 1) by {
            forall j | 0 <= j < i - 1 ensures rs[1..][j].Ok? { assert rs[1..][j] == rs[j + 1]; }
          }
        }
      }
      if NoError(rs) {
        assert NoError(rs[1..]) by {
          forall j | 0 <= j < |rs[1..]| ensures rs[1..][j].Ok? { assert rs[1..][j] == rs[j + 1]; }
        }
      }
    }
  }

  /** `ChildVec<T>::to_ser` once the parent's `Children` are known. */
  function ChildVecSer(rs: seq<Probe>): (r: Probe)
    ensures r != Ok(None)
    ensures forall i :: FirstError(rs, i) ==> r == Err(rs[i].error)
    ensures NoError(rs) ==> r == Ok(Some(Seq(SomeValues(rs))))
  {
    CollectMatches(rs);
    match CollectVec(Matches(rs))
    case Ok(items) => Ok(Some(Seq(items)))
    case Err(error) => Err(error)
  }

  // ---------------------------------------------------------------------------
  // ChildMap
  // ---------------------------------------------------------------------------

  /** Child `i` aborts the map: its key failed, or it has a key and its value
      failed or is missing. */
  predicate Bad(k: Probe, v: Probe)
  {
    k.Err? || (k.Ok? && k.value.Some? && !(v.Ok? && v.value.Some?))
  }

  /** The error a bad child reports: the key's, else the value's, else `KeyNoValue`. */
  function BadError(k: Probe, v: Probe, kty: Obj, vty: Obj): Error
  {
    if k.Err? then k.error else if v.Err? then v.error else KeyNoValue(kty, vty)
  }

  ghost predicate FirstBad(ks: seq<Probe>, vs: seq<Probe>, i: int)
    requires |ks| == |vs|
  {
    0 <= i < |ks| && Bad(ks[i], vs[i]) && forall j :: 0 <= j < i ==> !Bad(ks[j], vs[j])
  }

  ghost predicate NoBad(ks: seq<Probe>, vs: seq<Probe>)
    requires |ks| == |vs|
  {
    forall i :: 0 <= i < |ks| ==> !Bad(ks[i], vs[i])
  }

  /** The value of the LAST child whose key is `k`: the reference meaning of a
      map collected with last-wins insertion. */
  function LastValue(ks: seq<Probe>, vs: seq<Probe>, k: Doc): (r: Option<Doc>)
    requires |ks| == |vs|
    requires NoBad(ks, vs)
    ensures r.Some? ==> exists i :: 0 <= i < |ks| && ks[i] == Ok(Some(k)) && vs[i] == Ok(Some(r.value))
    ensures r.None? ==> forall i :: 0 <= i < |ks| ==> ks[i] != Ok(Some(k))
  {
    if |ks| == 0 then None
    else
      var n := |ks| - 1;
      assert !Bad(ks[n], vs[n]);
      if ks[n] == Ok(Some(k)) then Some(vs[n].value.value)
      else
        assert NoBad(ks[..n], vs[..n]) by {
          forall i | 0 <= i < n ensures !Bad(ks[..n][i], vs[..n][i]) { assert ks[..n][i] == ks[i]; }
        }
        var r := LastValue(ks[..n], vs[..n], k);
        if r.Some? then
          var i :| 0 <= i < n && ks[..n][i] == Ok(Some(k)) && vs[..n][i] == Ok(Some(r.value));
          assert ks[i] == ks[..n][i] && vs[i] == vs[..n][i];
          r
        else
          assert forall i :: 0 <= i < n ==> ks[i] == ks[..n][i];
          r
  }

  /** One child as the pair iterator of `ChildMap::to_ser` sees it: skipped
      (`None`) when its key is absent, otherwise its `(key?, value?.ok_or(KeyNoValue)?)`. */
  function MapEntry(k: Probe, v: Probe, kty: Obj, vty: Obj): Option<Result<(Doc, Doc), Error>>
  {
    if k.Ok? && k.value.None? then None
    else if k.Err? then Some(Err(k.error))
    else if v.Err? then Some(Err(v.error))
    else if v.value.None? then Some(Err(KeyNoValue(kty, vty)))
    else Some(Ok((k.value.value, v.value.value)))
  }

  /** `collect::<Result<BTreeMap<_, _>, _>>()` over the entries, starting from `acc`. */
  function CollectMap(es: seq<Option<Result<(Doc, Doc), Error>>>, acc: Entries): Result<Entries, Error>
    requires Sorted(acc)
  {
    if |es| == 0 then Ok(acc)
    else match es[0]
      case None => CollectMap(es[1..], acc)
      case Some(Err(x)) => Err(x)
      case Some(Ok(p)) => CollectMap(es[1..], Insert(acc, p.0, p.1))
  }

  function MapEntries(ks: seq<Probe>, vs: seq<Probe>, kty: Obj, vty: Obj): (es: seq<Option<Result<(Doc, Doc), Error>>>)
    requires |ks| == |vs|
    ensures |es| == |ks|
    ensures forall i :: 0 <= i < |ks| ==> es[i] == MapEntry(ks[i], vs[i], kty, vty)
  {
    seq(|ks|, i requires 0 <= i < |ks| => MapEntry(ks[i], vs[i], kty, vty))
  }

  lemma {:induction false} CollectMapFails(ks: seq<Probe>, vs: seq<Probe>, kty: Obj, vty: Obj, i: int, acc: Entries)
    requires |ks| == |vs| && Sorted(acc)
    requires FirstBad(ks, vs, i)
    ensures CollectMap(MapEntries(ks, vs, kty, vty), acc) == Err(BadError(ks[i], vs[i], kty, vty))
    decreases |ks|
  {
    var es := MapEntries(ks, vs, kty, vty);
    assert es[1..] == MapEntries(ks[1..], vs[1..], kty, vty);
    if i > 0 {
      assert !Bad(ks[0], vs[0]);
      assert FirstBad(ks[1..], vs[1..], i - 1) by {
        forall j | 0 <= j < i - 1 ensures !Bad(ks[1..][j], vs[1..][j]) {
          assert ks[1..][j] == ks[j + 1] && vs[1..][j] == vs[j + 1];
        }
      }
      match es[0]
      case None => CollectMapFails(ks[1..], vs[1..], kty, vty, i - 1, acc);
      case Some(Ok(p)) => CollectMapFails(ks[1..], vs[1..], kty, vty, i - 1, Insert(acc, p.0, p.1));
    }
  }

  /** The value `k` has after collecting the children onto `acc`: the last
      child's value for `k`, or `acc`'s when no child yields `k`. */
  function LastOr(ks: seq<Probe>, vs: seq<Probe>, acc: Entries, k: Doc): Option<Doc>
    requires |ks| == |vs| && NoBad(ks, vs)
  {
    var last := LastValue(ks, vs, k);
    if last.Some? then last else Lookup(acc, k)
  }

  /** Collecting from `acc`: each key ends with the value of its last child,
      and keys no child yields keep their value in `acc`. */
  lemma {:induction false} CollectMapSucceeds(ks: seq<Probe>, vs: seq<Probe>, kty: Obj, vty: Obj, acc: Entries)
    requires |ks| == |vs| && Sorted(acc)
    requires NoBad(ks, vs)
    ensures CollectMap(MapEntries(ks, vs, kty, vty), acc).Ok?
    ensures Sorted(CollectMap(MapEntries(ks, vs, kty, vty), acc).value)
    ensures forall k :: Lookup(CollectMap(MapEntries(ks, vs, kty, vty), acc).value, k) == LastOr(ks, vs, acc, k)
    decreases |ks|
  {
    var es := MapEntries(ks, vs, kty, vty);
    if |ks| > 0 {
      assert NoBad(ks[1..], vs[1..]) by {
        forall i | 0 <= i < |ks| - 1 ensures !Bad(ks[1..][i], vs[1..][i]) { assert ks[1..][i] == ks[i + 1]; }
      }
      assert es[1..] == MapEntries(ks[1..], vs[1..], kty, vty);
      assert !Bad(ks[0], vs[0]);
      if ks[0].value.None? {
        assert es[0].None?;
        CollectMapSucceeds(ks[1..], vs[1..], kty, vty, acc);
        forall k ensures Lookup(CollectMap(es, acc).value, k) == LastOr(ks, vs, acc, k) {
          LastValueHead(ks, vs, k);
        }
      } else {
        var kd, vd := ks[0].value.value, vs[0].value.value;
        assert es[0] == Some(Ok((kd, vd)));
        var acc' := Insert(acc, kd, vd);
        CollectMapSucceeds(ks[1..], vs[1..], kty, vty, acc');
        forall k ensures Lookup(CollectMap(es, acc).value, k) == LastOr(ks, vs, acc, k) {
          LastValueHead(ks, vs, k);
        }
      }
    }
  }

  /** Splitting off the first child: the last value for `k` comes from the
      remaining children if any of them yields `k`, otherwise from the first. */
  lemma {:induction false} LastValueHead(ks: seq<Probe>, vs: seq<Probe>, k: Doc)
    requires |ks| == |vs| && |ks| > 0
    requires NoBad(ks, vs)
    ensures NoBad(ks[1..], vs[1..])
    ensures LastValue(ks, vs, k) ==
      if LastValue(ks[1..], vs[1..], k).Some? then LastValue(ks[1..], vs[1..], k)
      else if ks[0] == Ok(Some(k)) then Some(vs[0].value.value)
      else None
    decreases |ks|
  {
    assert NoBad(ks[1..], vs[1..]) by {
      forall i | 0 <= i < |ks| - 1 ensures !Bad(ks[1..][i], vs[1..][i]) { assert ks[1..][i] == ks[i + 1]; }
    }
    var n := |ks| - 1;
    assert !Bad(ks[0], vs[0]);
    if n > 0 {
      assert ks[1..][n - 1] == ks[n] && vs[1..][n - 1] == vs[n];
      if ks[n] != Ok(Some(k)) {
        assert NoBad(ks[..n], vs[..n]) by {
          forall i | 0 <= i < n ensures !Bad(ks[..n][i], vs[..n][i]) { assert ks[..n][i] == ks[i]; }
        }
        LastValueHead(ks[..n], vs[..n], k);
        assert ks[..n][1..] == ks[1..][..n - 1];
        assert vs[..n][1..] == vs[1..][..n - 1];
      }
    }
  }

  /** `ChildMap<K, V>::to_ser` once the parent's `Children` are known; `ks` and
      `vs` are the key and value probes of the same children. */
  function ChildMapSer(kty: Obj, vty: Obj, ks: seq<Probe>, vs: seq<Probe>): (r: Probe)
    requires |ks| == |vs|
    ensures r != Ok(None)
    ensures forall i :: FirstBad(ks, vs, i) ==> r == Err(BadError(ks[i], vs[i], kty, vty))
    ensures NoBad(ks, vs) ==> r.Ok? && r.value.Some? && r.value.value.Map? && Sorted(r.value.value.entries)
    ensures NoBad(ks, vs) ==> forall k :: Lookup(r.value.value.entries, k) == LastValue(ks, vs, k)
  {
    assert forall i :: FirstBad(ks, vs, i) ==> CollectMap(MapEntries(ks, vs, kty, vty), []) == Err(BadError(ks[i], vs[i], kty, vty)) by {
      forall i | FirstBad(ks, vs, i) ensures CollectMap(MapEntries(ks, vs, kty, vty), []) == Err(BadError(ks[i], vs[i], kty, vty)) {
        CollectMapFails(ks, vs, kty, vty, i, []);
      }
    }
    assert NoBad(ks, vs) ==>
      && CollectMap(MapEntries(ks, vs, kty, vty), []).Ok?
      && Sorted(CollectMap(MapEntries(ks, vs, kty, vty), []).value)
      && forall k :: Lookup(CollectMap(MapEntries(ks, vs, kty, vty), []).value, k) == LastOr(ks, vs, [], k)
    by {
      if NoBad(ks, vs) {
        CollectMapSucceeds(ks, vs, kty, vty, []);
      }
    }
    match CollectMap(MapEntries(ks, vs, kty, vty), [])
    case Ok(m) => Ok(Some(Map(m)))
    case Err(error) => Err(error)
  }

  // ---------------------------------------------------------------------------
  // Composite fields
  // ---------------------------------------------------------------------------

  predicate Present(r: Probe)
  {
    r.Ok? && r.value.Some?
  }

  /** Field `i` is the first field without a value. */
  ghost predicate FirstAbsent(rs: seq<Probe>, i: int)
  {
    0 <= i < |rs| && !Present(rs[i]) && forall j :: 0 <= j < i ==> Present(rs[j])
  }

  /** The error a field without a value reports: its own error, or `FieldMissing`. */
  function FieldError(r: Probe, field: string, name: string): Error
  {
    if r.Err? then r.error else FieldMissing(field, name)
  }

  /** The fields of a `bind_object!` struct, each `to_ser(..)?.ok_or(FieldMissing)?`
      in declaration order; `name` is the bound name. */
  function FieldsSer(fields: seq<string>, rs: seq<Probe>, name: string): (r: Result<seq<(string, Doc)>, Error>)
    requires |fields| == |rs|
    ensures forall i :: FirstAbsent(rs, i) ==> r == Err(FieldError(rs[i], fields[i], name))
    ensures (forall i :: 0 <= i < |rs| ==> Present(rs[i])) ==>
      r.Ok? && |r.value| == |rs| && forall i :: 0 <= i < |rs| ==> r.value[i] == (fields[i], rs[i].value.value)
  {
    if |rs| == 0 then Ok([])
    else match rs[0]
      case Err(x) => Err(x)
      case Ok(None) => Err(FieldMissing(fields[0], name))
      case Ok(Some(d)) =>
        assert forall i :: FirstAbsent(rs, i) ==> i > 0 && FirstAbsent(rs[1..], i - 1) by {
          forall i | FirstAbsent(rs, i) ensures i > 0 && FirstAbsent(rs[1..], i - 1) {
            forall j | 0 <= j < i - 1 ensures Present(rs[1..][j]) { assert rs[1..][j] == rs[j + 1]; }
          }
        }
        assert (forall i :: 0 <= i < |rs| ==> Present(rs[i])) ==> forall i :: 0 <= i < |rs| - 1 ==> Present(rs[1..][i]) by {
          if forall i :: 0 <= i < |rs| ==> Present(rs[i]) {
            forall i | 0 <= i < |rs| - 1 ensures Present(rs[1..][i]) { assert rs[1..][i] == rs[i + 1]; }
          }
        }
        var rest :- FieldsSer(fields[1..], rs[1..], name);
        Ok([(fields[0], d)] + rest)
  }

  /** Some field lacks a value, so a first such field exists. */
  lemma {:induction false} FirstAbsentExists(rs: seq<Probe>, i: int)
    requires 0 <= i < |rs| && !Present(rs[i])
    ensures exists j :: FirstAbsent(rs, j)
    decreases i
  {
    if !FirstAbsent(rs, i) {
      var j :| 0 <= j < i && !Present(rs[j]);
      FirstAbsentExists(rs, j);
    }
  }

  /** The generated `__BoundObject::to_ser`: `None` when the entity lacks the
      main component, otherwise the struct of all fields in declaration order,
      the first field without a value deciding the error. */
  function CompositeSer(hasMain: bool, name: string, fields: seq<string>, rs: seq<Probe>): (r: Probe)
    requires |fields| == |rs|
    ensures !hasMain <==> r == Ok(None)
    ensures hasMain ==> forall i :: FirstAbsent(rs, i) ==> r == Err(FieldError(rs[i], fields[i], name))
    ensures hasMain && (forall i :: 0 <= i < |rs| ==> Present(rs[i])) ==>
      && r.Ok? && r.value.Some? && r.value.value.Struct?
      && r.value.value.name == name
      && |r.value.value.fields| == |rs|
      && forall i :: 0 <= i < |rs| ==> r.value.value.fields[i] == (fields[i], rs[i].value.value)
  {
    if !hasMain then Ok(None)
    else
      var ds :- FieldsSer(fields, rs, name);
      Ok(Some(Struct(name, ds)))
  }

  /** Some child matches, so a first matching child exists. */
  lemma {:induction false} FirstMatchExists(rs: seq<Probe>, i: int)
    requires 0 <= i < |rs| && Matched(rs[i])
    ensures exists j :: FirstMatch(rs, j)
    decreases i
  {
    if !FirstMatch(rs, i) {
      var j :| 0 <= j < i && Matched(rs[j]);
      FirstMatchExists(rs, j);
    }
  }

  /** Some child failed, so a first failing child exists. */
  lemma {:induction false} FirstErrorExists(rs: seq<Probe>, i: int)
    requires 0 <= i < |rs| && rs[i].Err?
    ensures exists j :: FirstError(rs, j)
    decreases i
  {
    if !FirstError(rs, i) {
      var j :| 0 <= j < i && rs[j].Err?;
      FirstErrorExists(rs, j);
    }
  }

  /** Some child is bad, so a first bad child exists. */
  lemma {:induction false} FirstBadExists(ks: seq<Probe>, vs: seq<Probe>, i: int)
    requires |ks| == |vs| && 0 <= i < |ks| && Bad(ks[i], vs[i])
    ensures exists j :: FirstBad(ks, vs, j)
    decreases i
  {
    if !FirstBad(ks, vs, i) {
      var j :| 0 <= j < i && Bad(ks[j], vs[j]);
      FirstBadExists(ks, vs, j);
    }
  }

  /** `ChildUnchecked` stops at its first match: whatever follows that child
      does not change the result. */
  lemma UncheckedIgnoresLater(rs: seq<Probe>, i: int, later: seq<Probe>)
    requires FirstMatch(rs, i)
    ensures ChildUncheckedSer(rs[..i + 1] + later) == ChildUncheckedSer(rs)
  {
    var rs' := rs[..i + 1] + later;
    assert rs'[i] == rs[i];
    assert FirstMatch(rs', i) by {
      forall j | 0 <= j < i ensures !Matched(rs'[j]) { assert rs'[j] == rs[j]; }
    }
  }

  /** `Child` and `ChildUnchecked` agree unless several children match; then
      `Child` fails (with `MoreThenOne` when no child failed) while
      `ChildUnchecked` returns the first match. */
  lemma CheckedVersusUnchecked(parent: nat, ty: Obj, rs: seq<Probe>)
    ensures !SeveralMatches(rs) ==> ChildSer(parent, ty, rs) == ChildUncheckedSer(rs)
    ensures SeveralMatches(rs) && NoError(rs) ==>
      ChildSer(parent, ty, rs) == Err(MoreThenOne(parent, ty)) && ChildUncheckedSer(rs).Ok?
  {
    MatchCases(rs);
    if exists i :: OnlyMatch(rs, i) {
      var i :| OnlyMatch(rs, i);
      assert FirstMatch(rs, i);
    }
    if SeveralMatches(rs) {
      var i, j :| 0 <= i < j < |rs| && Matched(rs[i]) && Matched(rs[j]);
      FirstMatchExists(rs, i);
    }
  }

  /** Fields that never report "absent" (`Maybe`, `ChildVec`, `ChildMap`)
      cannot make the composite report `FieldMissing`: with the main component
      present it yields its struct, or an error one of its fields raised. */
  lemma NeverAbsentFieldsNeverMissing(name: string, fields: seq<string>, rs: seq<Probe>)
    requires |fields| == |rs|
    requires forall i :: 0 <= i < |rs| ==> rs[i] != Ok(None)
    ensures var r := CompositeSer(true, name, fields, rs);
      && (r.Ok? ==> r.value.Some?)
      && (r.Err? ==> exists i :: 0 <= i < |rs| && rs[i] == Err(r.error))
  {
    if exists i :: 0 <= i < |rs| && !Present(rs[i]) {
      var i :| 0 <= i < |rs| && !Present(rs[i]);
      FirstAbsentExists(rs, i);
      var j :| FirstAbsent(rs, j);
      assert rs[j].Err?;
    }
  }

  lemma SomeValuesCons(rs: seq<Probe>)
    requires |rs| > 0 && rs[0].Ok? && rs[0].value.Some?
    ensures SomeValues(rs) == [rs[0].value.value] + SomeValues(rs[1..])
  {
  }

  /** When every child yields a value, `ChildVec` collects all of them, in order. */
  lemma {:induction false} SomeValuesAll(rs: seq<Probe>, ds: seq<Doc>)
    requires |rs| == |ds| && forall j :: 0 <= j < |rs| ==> rs[j] == Ok(Some(ds[j]))
    ensures SomeValues(rs) == ds
    decreases |rs|
  {
    if |rs| > 0 {
      var tail := rs[1..];
      forall j | 0 <= j < |tail| ensures tail[j] == Ok(Some(ds[1..][j])) {
        assert tail[j] == rs[j + 1];
      }
      SomeValuesAll(tail, ds[1..]);
      SomeValuesCons(rs);
      assert ds == [ds[0]] + ds[1..];
    }
  }

  /** When the children's keys are distinct, last-wins collection loses
      nothing: each key's value is the one its only child carries. */
  lemma LastValueDistinct(ks: seq<Probe>, vs: seq<Probe>, es: Entries)
    requires |ks| == |vs| == |es| && Sorted(es)
    requires forall j :: 0 <= j < |es| ==> ks[j] == Ok(Some(es[j].0)) && vs[j] == Ok(Some(es[j].1))
    ensures NoBad(ks, vs)
    ensures forall k :: LastValue(ks, vs, k) == Lookup(es, k)
  {
    forall k ensures LastValue(ks, vs, k) == Lookup(es, k) {
      var r := LastValue(ks, vs, k);
      if r.Some? {
        var i :| 0 <= i < |ks| && ks[i] == Ok(Some(k)) && vs[i] == Ok(Some(r.value));
        LookupEntry(es, i);
      }
    }
  }
}

=== FILE: materialize.dfy ===
/** `BevyObject::from_de` for every object of the language: writing a
    deserialized document back into the world. Writes are not rolled back, so
    the result pairs the world as it stands with the error that stopped the
    writing, if any. */
module Materialize {
  import opened Results
  import opened Docs
  import opened SortedMaps
  import opened Worlds
  import opened Objects

  /** The world after `from_de`, and the error it returned (`None` for `Ok(())`). */
  datatype Written = Written(world: World, failure: Option<Error>)

  function FromDe(L: Leaves, w: World, o: Obj, e: EntityId, d: Doc): (r: Written)
    requires WellTyped(o, d)
    decreases o, 3, 0
  {
    match o
    case Leaf(c) =>
      (match L.de(c, d)
       case Err(m) => Written(w, Some(Custom(m)))
       case Ok(v) =>
         match InsertComponent(w, e, c, v)
         case None => Written(w, Some(EntityNotFound(e)))
         case Some(w2) => Written(w2, None))
    case Maybe(t) => if d.NoneDoc? then Written(w, None) else FromDe(L, w, t, e, d.inner)
    case Child(t) => SpawnChild(L, w, t, e, d)
    case ChildUnchecked(t) => SpawnChild(L, w, t, e, d)
    case ChildVec(t) => SpawnItems(L, w, t, e, d.items)
    case ChildMap(_, _) => SpawnEntries(L, w, o, e, d.entries)
    case Composite(_, _, _) => ApplyFields(L, w, o, e, d.fields, 0)
  }

  /** Spawn an entity, write `d` into it as a `t`, and only then make it the
      last child of `parent`. */
  function SpawnChild(L: Leaves, w: World, t: Obj, parent: EntityId, d: Doc): (r: Written)
    requires WellTyped(t, d)
    decreases t, 4, 0
  {
    var (w1, c) := Spawn(w);
    var r1 := FromDe(L, w1, t, c, d);
    if r1.failure.Some? then r1
    else match AddChild(r1.world, parent, c)
      case None => Written(r1.world, Some(EntityNotFound(parent)))
      case Some(w2) => Written(w2, None)
  }

  /** `ChildVec::from_de`: one spawned child per item, in item order, up to the first error. */
  function SpawnItems(L: Leaves, w: World, t: Obj, parent: EntityId, items: seq<Doc>): (r: Written)
    requires forall x :: x in items ==> WellTyped(t, x)
    decreases t, 5, |items|
  {
    if |items| == 0 then Written(w, None)
    else
      var r1 := SpawnChild(L, w, t, parent, items[0]);
      if r1.failure.Some? then r1 else SpawnItems(L, r1.world, t, parent, items[1..])
  }

  /** One `ChildMap` entry: the key and then the value are written into the
      same spawned entity, which is attached once both succeed. */
  function SpawnEntry(L: Leaves, w: World, o: Obj, parent: EntityId, p: (Doc, Doc)): (r: Written)
    requires o.ChildMap? && WellTyped(o.key, p.0) && WellTyped(o.value, p.1)
    decreases o, 1, 0
  {
    var (w1, c) := Spawn(w);
    var r1 := FromDe(L, w1, o.key, c, p.0);
    if r1.failure.Some? then r1
    else
      var r2 := FromDe(L, r1.world, o.value, c, p.1);
      if r2.failure.Some? then r2
      else match AddChild(r2.world, parent, c)
        case None => Written(r2.world, Some(EntityNotFound(parent)))
        case Some(w3) => Written(w3, None)
  }

  /** `ChildMap::from_de`: one spawned child per entry, in ascending key order, up to the first error. */
  function SpawnEntries(L: Leaves, w: World, o: Obj, parent: EntityId, es: seq<(Doc, Doc)>): (r: Written)
    requires o.ChildMap? && forall p :: p in es ==> WellTyped(o.key, p.0) && WellTyped(o.value, p.1)
    decreases o, 2, |es|
  {
    if |es| == 0 then Written(w, None)
    else
      var r1 := SpawnEntry(L, w, o, parent, es[0]);
      if r1.failure.Some? then r1 else SpawnEntries(L, r1.world, o, parent, es[1..])
  }

  /** The generated `__BoundObject::from_de`: fields `i..` in declaration
      order, each written into the same entity, up to the first error. */
  function ApplyFields(L: Leaves, w: World, o: Obj, e: EntityId, ds: seq<(string, Doc)>, i: nat): (r: Written)
    requires o.Composite? && |ds| == |o.fields| && i <= |ds|
    requires forall j :: 0 <= j < |ds| ==> WellTyped(o.fields[j].obj, ds[j].1)
    decreases o, 0, |ds| - i
  {
    if i == |ds| then Written(w, None)
    else
      var r1 := FromDe(L, w, o.fields[i].obj, e, ds[i].1);
      if r1.failure.Some? then r1 else ApplyFields(L, r1.world, o, e, ds, i + 1)
  }

  // ---------------------------------------------------------------------------
  // What a write may touch
  // ---------------------------------------------------------------------------

  predicate Ascending(s: seq<EntityId>)
  {
    forall a, b :: 0 <= a < b < |s| ==> s[a] < s[b]
  }

  /** `news` were spawned between `w` and `w2`, in this order. */
  ghost predicate Fresh(w: World, w2: World, news: seq<EntityId>)
  {
    Ascending(news) && forall x :: x in news ==> x in w2.entities && w.next <= x < w2.next
  }

  /** `w2` comes from `w` by spawning entities and writing into `e` and the
      spawned entities only: every other entity is untouched, and `e` keeps its
      children and may gain freshly spawned ones, in spawn order. */
  ghost predicate Extends(w: World, w2: World, e: EntityId)
  {
    && Valid(w2) && w.next <= w2.next
    && (forall x :: x in w.entities ==> x in w2.entities)
    && (forall x :: x in w.entities && x != e ==> w2.entities[x] == w.entities[x])
    && (e in w.entities ==>
          && |ChildrenOf(w, e)| <= |ChildrenOf(w2, e)|
          && ChildrenOf(w2, e)[..|ChildrenOf(w, e)|] == ChildrenOf(w, e)
          && Fresh(w, w2, ChildrenOf(w2, e)[|ChildrenOf(w, e)|..]))
  }

  lemma KeepsChildren(w: World, w2: World, e: EntityId)
    requires Valid(w2) && w.next <= w2.next
    requires forall x :: x in w.entities ==> x in w2.entities
    requires forall x :: x in w.entities && x != e ==> w2.entities[x] == w.entities[x]
    requires e in w.entities ==> ChildrenOf(w2, e) == ChildrenOf(w, e)
    ensures Extends(w, w2, e)
  {
    if e in w.entities {
      var now := ChildrenOf(w2, e);
      assert now[..|now|] == now;
      assert now[|now|..] == [];
    }
  }

  lemma ExtendsTrans(w1: World, w2: World, w3: World, e: EntityId)
    requires Extends(w1, w2, e) && Extends(w2, w3, e)
    ensures Extends(w1, w3, e)
  {
    if e in w1.entities {
      var before, mid, now := ChildrenOf(w1, e), ChildrenOf(w2, e), ChildrenOf(w3, e);
      assert now[..|before|] == before by {
        assert now[..|before|] == now[..|mid|][..|before|];
      }
      var n1, n2, n := mid[|before|..], now[|mid|..], now[|before|..];
      assert n == n1 + n2 by {
        assert now == before + n1 + n2 by {
          assert mid == before + n1;
          assert now == mid + n2;
        }
      }
      forall a, b | 0 <= a < b < |n| ensures n[a] < n[b] {
        if b < |n1| {
          assert n[a] == n1[a] && n[b] == n1[b];
        } else if a >= |n1| {
          assert n[a] == n2[a - |n1|] && n[b] == n2[b - |n1|];
        } else {
          assert n[a] == n1[a] && n1[a] in n1;
          assert n[b] == n2[b - |n1|] && n2[b - |n1|] in n2;
        }
      }
      forall x | x in n ensures x in w3.entities && w1.next <= x < w3.next {
        if x in n1 {
          assert x in w2.entities;
        } else {
          assert x in n2;
        }
      }
    }
  }

  /** A child entity `c = w.next` was spawned and written into: nothing else
      changed, and attaching it makes it the parent's last child. */
  lemma AttachStep(w: World, wc: World, parent: EntityId)
    requires Valid(w) && Extends(Spawn(w).0, wc, w.next)
    ensures Extends(w, wc, parent)
    ensures parent in w.entities ==> ChildrenOf(wc, parent) == ChildrenOf(w, parent)
    ensures forall w3 :: AddChild(wc, parent, w.next) == Some(w3) ==>
      Extends(w, w3, parent) && (parent in w.entities ==> ChildrenOf(w3, parent) == ChildrenOf(w, parent) + [w.next])
  {
    var c := w.next;
    var w1 := Spawn(w).0;
    forall x | x in w.entities ensures x in wc.entities && wc.entities[x] == w.entities[x] {
      assert x != c && x in w1.entities;
    }
    KeepsChildren(w, wc, parent);
    forall w3 | AddChild(wc, parent, c) == Some(w3)
      ensures Extends(w, w3, parent) && (parent in w.entities ==> ChildrenOf(w3, parent) == ChildrenOf(w, parent) + [c])
    {
      assert c in w1.entities;
      assert Valid(w3);
      if parent in w.entities {
        var before, now := ChildrenOf(w, parent), ChildrenOf(w3, parent);
        assert now[..|before|] == before;
        assert now[|before|..] == [c];
      }
    }
  }

  lemma {:induction false} FromDeExtends(L: Leaves, w: World, o: Obj, e: EntityId, d: Doc)
    requires Valid(w) && WellTyped(o, d)
    ensures Extends(w, FromDe(L, w, o, e, d).world, e)
    ensures (o.Child? || o.ChildUnchecked? || o.ChildVec? || o.ChildMap?) && e in w.entities ==>
      FromDe(L, w, o, e, d).world.entities[e].components == w.entities[e].components
    decreases o, 3, 0
  {
    match o
    case Leaf(c) =>
      var r := FromDe(L, w, o, e, d);
      KeepsChildren(w, r.world, e);
    case Maybe(t) =>
      if d.NoneDoc? { KeepsChildren(w, w, e); } else { FromDeExtends(L, w, t, e, d.inner); }
    case Child(t) => SpawnChildExtends(L, w, t, e, d);
    case ChildUnchecked(t) => SpawnChildExtends(L, w, t, e, d);
    case ChildVec(t) => SpawnItemsExtends(L, w, t, e, d.items);
    case ChildMap(_, _) => SpawnEntriesExtends(L, w, o, e, d.entries);
    case Composite(_, _, _) => ApplyFieldsExtends(L, w, o, e, d.fields, 0);
  }

  /** `Child::from_de` spawns exactly one entity and attaches it, as the
      parent's last child, only once the inner `from_de` succeeded. */
  lemma {:induction false} SpawnChildExtends(L: Leaves, w: World, t: Obj, parent: EntityId, d: Doc)
    requires Valid(w) && WellTyped(t, d)
    ensures var r := SpawnChild(L, w, t, parent, d);
      && Extends(w, r.world, parent)
      && w.next in r.world.entities
      && (parent in w.entities && r.failure.None? ==> ChildrenOf(r.world, parent) == ChildrenOf(w, parent) + [w.next])
      && (parent in w.entities && r.failure.Some? ==> ChildrenOf(r.world, parent) == ChildrenOf(w, parent))
    ensures var r, r1 := SpawnChild(L, w, t, parent, d), FromDe(L, Spawn(w).0, t, w.next, d);
      && (r1.failure.Some? ==> r == r1)
      && (r1.failure.None? ==> (r.failure.None? <==> parent in r1.world.entities))
      && (r1.failure.None? && r.failure.Some? ==> r == Written(r1.world, Some(EntityNotFound(parent))))
      && (r1.failure.None? && r.failure.None? ==>
            forall x :: x in r1.world.entities && x != parent ==> r.world.entities[x] == r1.world.entities[x])
    ensures parent in w.entities ==>
      SpawnChild(L, w, t, parent, d).world.entities[parent].components == w.entities[parent].components
    decreases t, 4, 0
  {
    var (w1, c) := Spawn(w);
    FromDeExtends(L, w1, t, c, d);
    AttachStep(w, FromDe(L, w1, t, c, d).world, parent);
  }

  /** `ChildVec::from_de` attaches one fresh child per item while the items
      succeed, and fewer than all of them when one fails. */
  lemma {:induction false} SpawnItemsExtends(L: Leaves, w: World, t: Obj, parent: EntityId, items: seq<Doc>)
    requires Valid(w) && forall x :: x in items ==> WellTyped(t, x)
    ensures var r := SpawnItems(L, w, t, parent, items);
      && Extends(w, r.world, parent)
      && (parent in w.entities && r.failure.None? ==> |ChildrenOf(r.world, parent)| == |ChildrenOf(w, parent)| + |items|)
      && (parent in w.entities && r.failure.Some? ==> |ChildrenOf(r.world, parent)| < |ChildrenOf(w, parent)| + |items|)
    ensures parent in w.entities ==>
      SpawnItems(L, w, t, parent, items).world.entities[parent].components == w.entities[parent].components
    decreases t, 5, |items|
  {
    if |items| == 0 {
      KeepsChildren(w, w, parent);
    } else {
      var r1 := SpawnChild(L, w, t, parent, items[0]);
      SpawnChildExtends(L, w, t, parent, items[0]);
      if r1.failure.None? {
        assert forall x :: x in items[1..] ==> x in items;
        SpawnItemsExtends(L, r1.world, t, parent, items[1..]);
        ExtendsTrans(w, r1.world, SpawnItems(L, w, t, parent, items).world, parent);
      }
    }
  }

  /** One `ChildMap` entry: the same shape as `SpawnChildExtends`, with the key
      and the value written into the one spawned entity. */
  lemma {:induction false} SpawnEntryExtends(L: Leaves, w: World, o: Obj, parent: EntityId, p: (Doc, Doc))
    requires Valid(w) && o.ChildMap? && WellTyped(o.key, p.0) && WellTyped(o.value, p.1)
    ensures var r := SpawnEntry(L, w, o, parent, p);
      && Extends(w, r.world, parent)
      && (parent in w.entities && r.failure.None? ==> ChildrenOf(r.world, parent) == ChildrenOf(w, parent) + [w.next])
      && (parent in w.entities && r.failure.Some? ==> ChildrenOf(r.world, parent) == ChildrenOf(w, parent))
    ensures var r, r1 := SpawnEntry(L, w, o, parent, p), FromDe(L, Spawn(w).0, o.key, w.next, p.0);
      && (r1.failure.Some? ==> r == r1)
      && (r1.failure.None? ==>
            var r2 := FromDe(L, r1.world, o.value, w.next, p.1);
            && (r2.failure.Some? ==> r == r2)
            && (r2.failure.None? ==> (r.failure.None? <==> parent in r2.world.entities))
            && (r2.failure.None? && r.failure.Some? ==> r == Written(r2.world, Some(EntityNotFound(parent))))
            && (r2.failure.None? && r.failure.None? ==>
                  forall x :: x in r2.world.entities && x != parent ==> r.world.entities[x] == r2.world.entities[x]))
    ensures parent in w.entities ==>
      SpawnEntry(L, w, o, parent, p).world.entities[parent].components == w.entities[parent].components
    decreases o, 1, 0
  {
    var (w1, c) := Spawn(w);
    var r1 := FromDe(L, w1, o.key, c, p.0);
    FromDeExtends(L, w1, o.key, c, p.0);
    if r1.failure.Some? {
      AttachStep(w, r1.world, parent);
    } else {
      var r2 := FromDe(L, r1.world, o.value, c, p.1);
      FromDeExtends(L, r1.world, o.value, c, p.1);
      ExtendsTrans(w1, r1.world, r2.world, c);
      AttachStep(w, r2.world, parent);
    }
  }

  /** `ChildMap::from_de` attaches one fresh child per entry while the entries succeed. */
  lemma {:induction false} SpawnEntriesExtends(L: Leaves, w: World, o: Obj, parent: EntityId, es: seq<(Doc, Doc)>)
    requires Valid(w) && o.ChildMap? && forall p :: p in es ==> WellTyped(o.key, p.0) && WellTyped(o.value, p.1)
    ensures var r := SpawnEntries(L, w, o, parent, es);
      && Extends(w, r.world, parent)
      && (parent in w.entities && r.failure.None? ==> |ChildrenOf(r.world, parent)| == |ChildrenOf(w, parent)| + |es|)
      && (parent in w.entities && r.failure.Some? ==> |ChildrenOf(r.world, parent)| < |ChildrenOf(w, parent)| + |es|)
    ensures parent in w.entities ==>
      SpawnEntries(L, w, o, parent, es).world.entities[parent].components == w.entities[parent].components
    decreases o, 2, |es|
  {
    if |es| == 0 {
      KeepsChildren(w, w, parent);
    } else {
      var r1 := SpawnEntry(L, w, o, parent, es[0]);
      SpawnEntryExtends(L, w, o, parent, es[0]);
      if r1.failure.None? {
        assert forall p :: p in es[1..] ==> p in es;
        SpawnEntriesExtends(L, r1.world, o, parent, es[1..]);
        ExtendsTrans(w, r1.world, SpawnEntries(L, w, o, parent, es).world, parent);
      }
    }
  }

  lemma {:induction false} ApplyFieldsExtends(L: Leaves, w: World, o: Obj, e: EntityId, ds: seq<(string, Doc)>, i: nat)
    requires Valid(w) && o.Composite? && |ds| == |o.fields| && i <= |ds|
    requires forall j :: 0 <= j < |ds| ==> WellTyped(o.fields[j].obj, ds[j].1)
    ensures Extends(w, ApplyFields(L, w, o, e, ds, i).world, e)
    decreases o, 0, |ds| - i
  {
    if i == |ds| {
      KeepsChildren(w, w, e);
    } else {
      var r1 := FromDe(L, w, o.fields[i].obj, e, ds[i].1);
      FromDeExtends(L, w, o.fields[i].obj, e, ds[i].1);
      if r1.failure.None? {
        ApplyFieldsExtends(L, r1.world, o, e, ds, i + 1);
        ExtendsTrans(w, r1.world, ApplyFields(L, w, o, e, ds, i).world, e);
      }
    }
  }

  // ---------------------------------------------------------------------------
  // Per-object laws
  // ---------------------------------------------------------------------------

  /** `Maybe::from_de`: `None` writes nothing; `Some(d)` writes what the inner
      object writes for `d`, into the same entity. */
  lemma MaybeFromDe(L: Leaves, w: World, t: Obj, e: EntityId, d: Doc)
    requires WellTyped(t, d)
    ensures FromDe(L, w, Maybe(t), e, NoneDoc) == Written(w, None)
    ensures FromDe(L, w, Maybe(t), e, SomeDoc(d)) == FromDe(L, w, t, e, d)
  {
  }

  lemma {:induction false} ApplyFieldsShift(L: Leaves, w: World, o: Obj, e: EntityId, ds: seq<(string, Doc)>, i: nat)
    requires o.Composite? && |o.fields| > 0 && |ds| == |o.fields| && 1 <= i <= |ds|
    requires forall j :: 0 <= j < |ds| ==> WellTyped(o.fields[j].obj, ds[j].1)
    ensures ApplyFields(L, w, o, e, ds, i) == ApplyFields(L, w, o.(fields := o.fields[1..]), e, ds[1..], i - 1)
    decreases |ds| - i
  {
    var o' := o.(fields := o.fields[1..]);
    if i < |ds| {
      assert o'.fields[i - 1] == o.fields[i] && ds[1..][i - 1] == ds[i];
      var r1 := FromDe(L, w, o.fields[i].obj, e, ds[i].1);
      if r1.failure.None? {
        ApplyFieldsShift(L, r1.world, o, e, ds, i + 1);
      }
    }
  }

  /** The composite's `from_de` is its first field's `from_de` followed, if
      that succeeded, by the composite of the remaining fields: fields run in
      declaration order on the same entity and the first error stops them. */
  lemma CompositeFromDeSteps(L: Leaves, w: World, main: CompId, name: string, fs: seq<Field>, e: EntityId, ds: seq<(string, Doc)>)
    requires |fs| > 0 && WellTyped(Composite(main, name, fs), Struct(name, ds))
    ensures WellTyped(Composite(main, name, fs[1..]), Struct(name, ds[1..]))
    ensures var r1 := FromDe(L, w, fs[0].obj, e, ds[0].1);
      FromDe(L, w, Composite(main, name, fs), e, Struct(name, ds)) ==
        if r1.failure.Some? then r1 else FromDe(L, r1.world, Composite(main, name, fs[1..]), e, Struct(name, ds[1..]))
  {
    var o := Composite(main, name, fs);
    forall j | 0 <= j < |fs| - 1
      ensures ds[1..][j].0 == fs[1..][j].name && WellTyped(fs[1..][j].obj, ds[1..][j].1)
    {
      assert ds[1..][j] == ds[j + 1] && fs[1..][j] == fs[j + 1];
    }
    var r1 := FromDe(L, w, fs[0].obj, e, ds[0].1);
    if r1.failure.None? {
      ApplyFieldsShift(L, r1.world, o, e, ds, 1);
    }
  }
}

=== FILE: objects.dfy ===
/** The closed object language: every `BevyObject` the core can build, the
    errors its projection reports, and the document shape each object's
    deserialized form (`BevyObject::De`) has. */
module Objects {
  import opened Results
  import opened Docs
  import opened SortedMaps
  import opened Worlds

  /** A `BevyObject`. `Leaf` is a component projected on its own (a component
      bound to itself); the next five are the child extractors; `Composite` is
      the object `bind_object!` generates from a main component, a serialized
      name and named fields. */
  datatype Obj =
    | Leaf(comp: CompId)
    | Maybe(inner: Obj)
    | Child(inner: Obj)
    | ChildUnchecked(inner: Obj)
    | ChildVec(inner: Obj)
    | ChildMap(key: Obj, value: Obj)
    | Composite(main: CompId, name: string, fields: seq<Field>)

  datatype Field = Field(name: string, obj: Obj)

  /** The crate's `Error`, plus `Custom` for errors raised by component
      serialization, which is outside this model. A Rust type name
      (`type_name::<T>()`) is represented by the object itself. */
  datatype Error =
    | EntityNotFound(entity: EntityId)
    | MoreThenOne(parent: EntityId, ty: Obj)
    | KeyNoValue(key: Obj, value: Obj)
    | FieldMissing(field: string, name: string)
    | Custom(message: string)

  /** What `to_ser` returns for one entity: `Ok(None)` means "not this kind of
      object", `Ok(Some(doc))` a serialized value, `Err` a failure. */
  type Probe = Result<Option<Doc>, Error>

  /** How a single component converts to and from a document. This is the
      component-level projection, which the core uses but does not define; it
      is a parameter so that nothing is assumed about it. */
  datatype Leaves = Leaves(
    ser: (CompId, Value) -> Result<Doc, string>,
    de: (CompId, Doc) -> Result<Value, string>)

  /** `d` has the shape of `o`'s deserialized type. `from_de` receives a value of
      that Rust type, so a mis-shaped document never reaches it: serde rejects
      it while deserializing. */
  ghost predicate WellTyped(o: Obj, d: Doc)
    decreases o
  {
    match o
    case Leaf(_) => true
    case Maybe(t) => d.NoneDoc? || (d.SomeDoc? && WellTyped(t, d.inner))
    case Child(t) => WellTyped(t, d)
    case ChildUnchecked(t) => WellTyped(t, d)
    case ChildVec(t) => d.Seq? && forall x :: x in d.items ==> WellTyped(t, x)
    case ChildMap(k, v) =>
      && d.Map?
      && Sorted(d.entries)
      && forall p :: p in d.entries ==> WellTyped(k, p.0) && WellTyped(v, p.1)
    case Composite(_, n, fs) =>
      && d.Struct? && d.name == n && |d.fields| == |fs|
      && forall i :: 0 <= i < |fs| ==> d.fields[i].0 == fs[i].name && WellTyped(fs[i].obj, d.fields[i].1)
  }
}

=== FILE: project.dfy ===
/** `BevyObject::to_ser` for every object of the language: reading an entity
    and its descendants into a document. */
module Project {
  import opened Results
  import opened Docs
  import opened SortedMaps
  import opened Worlds
  import opened Objects
  import opened Extractors

  /** `world.entity_ok(entity)?.get::<Children>()`. */
  function ChildList(w: World, e: EntityId): (r: Result<Option<seq<EntityId>>, Error>)
    ensures r.Err? <==> e !in w.entities
    ensures r.Err? ==> r.error == EntityNotFound(e)
    ensures r.Ok? ==> r.value == w.entities[e].children
  {
    if e !in w.entities then Err(EntityNotFound(e)) else Ok(w.entities[e].children)
  }

  /** A component projected on its own: `None` when the entity or the
      component is missing, otherwise the component-level serialization. */
  function LeafSer(L: Leaves, w: World, c: CompId, e: EntityId): (r: Probe)
    ensures r == Ok(None) <==> !HasComponent(w, e, c)
  {
    if !HasComponent(w, e, c) then Ok(None)
    else match L.ser(c, w.entities[e].components[c])
      case Ok(d) => Ok(Some(d))
      case Err(m) => Err(Custom(m))
  }

  /** Objects whose `to_ser` is never `Ok(None)`: a field of this kind can
      never be reported as `FieldMissing`. */
  predicate NeverAbsent(o: Obj)
  {
    o.Maybe? || o.ChildVec? || o.ChildMap?
  }

  function ToSer(L: Leaves, w: World, o: Obj, e: EntityId): (r: Probe)
    ensures NeverAbsent(o) ==> r != Ok(None)
    ensures o.Composite? ==> (r == Ok(None) <==> !HasComponent(w, e, o.main))
    ensures (o.Child? || o.ChildUnchecked? || o.ChildVec? || o.ChildMap?) && e !in w.entities ==>
      r == Err(EntityNotFound(e))
    ensures e in w.entities && w.entities[e].children.None? ==>
      && ((o.Child? || o.ChildUnchecked?) ==> r == Ok(None))
      && (o.ChildVec? ==> r == Ok(Some(Seq([]))))
      && (o.ChildMap? ==> r == Ok(Some(Map([]))))
    decreases o, 0
  {
    match o
    case Leaf(c) => LeafSer(L, w, c, e)
    case Maybe(t) => MaybeSer(ToSer(L, w, t, e))
    case Child(t) =>
      var children :- ChildList(w, e);
      if children.None? then Ok(None) else ChildSer(e, t, Probes(L, w, t, children.value))
    case ChildUnchecked(t) =>
      var children :- ChildList(w, e);
      if children.None? then Ok(None) else ChildUncheckedSer(Probes(L, w, t, children.value))
    case ChildVec(t) =>
      var children :- ChildList(w, e);
      if children.None? then Ok(Some(Seq([]))) else ChildVecSer(Probes(L, w, t, children.value))
    case ChildMap(k, v) =>
      var children :- ChildList(w, e);
      if children.None? then Ok(Some(Map([])))
      else ChildMapSer(k, v, Probes(L, w, k, children.value), Probes(L, w, v, children.value))
    case Composite(m, n, fs) =>
      var rs := seq(|fs|, i requires 0 <= i < |fs| => ToSer(L, w, fs[i].obj, e));
      CompositeSer(HasComponent(w, e, m), n, FieldNames(fs), rs)
  }

  /** `T::to_ser` of each child, in `Children` order. */
  function Probes(L: Leaves, w: World, t: Obj, cs: seq<EntityId>): (rs: seq<Probe>)
    ensures |rs| == |cs|
    ensures forall i :: 0 <= i < |cs| ==> rs[i] == ToSer(L, w, t, cs[i])
    decreases t, 1
  {
    seq(|cs|, i requires 0 <= i < |cs| => ToSer(L, w, t, cs[i]))
  }

  function FieldNames(fs: seq<Field>): (names: seq<string>)
    ensures |names| == |fs|
    ensures forall i :: 0 <= i < |fs| ==> names[i] == fs[i].name
  {
    seq(|fs|, i requires 0 <= i < |fs| => fs[i].name)
  }

  /** Each field's `to_ser` on the composite's own entity, in declaration order. */
  function FieldProbes(L: Leaves, w: World, o: Obj, e: EntityId): (rs: seq<Probe>)
    requires o.Composite?
    ensures |rs| == |o.fields|
    ensures forall i :: 0 <= i < |o.fields| ==> rs[i] == ToSer(L, w, o.fields[i].obj, e)
  {
    seq(|o.fields|, i requires 0 <= i < |o.fields| => ToSer(L, w, o.fields[i].obj, e))
  }

  // ---------------------------------------------------------------------------
  // Properties of the projection
  // ---------------------------------------------------------------------------

  /** What `to_ser` produces has the shape of the object's deserialized type
      (`Ser` and `De` are built alike), which is what lets a saved document be
      loaded back. */
  lemma {:induction false} ToSerWellTyped(L: Leaves, w: World, o: Obj, e: EntityId)
    ensures var r := ToSer(L, w, o, e); r.Ok? && r.value.Some? ==> WellTyped(o, r.value.value)
    decreases o, 1
  {
    match o
    case Leaf(_) =>
    case Maybe(t) => ToSerWellTyped(L, w, t, e);
    case Child(_) => ChildWellTyped(L, w, o, e);
    case ChildUnchecked(_) => ChildUncheckedWellTyped(L, w, o, e);
    case ChildVec(_) => ChildVecWellTyped(L, w, o, e);
    case ChildMap(_, _) => ChildMapWellTyped(L, w, o, e);
    case Composite(_, _, _) => CompositeWellTyped(L, w, o, e);
  }

  lemma {:induction false} ChildWellTyped(L: Leaves, w: World, o: Obj, e: EntityId)
    requires o.Child?
    ensures var r := ToSer(L, w, o, e); r.Ok? && r.value.Some? ==> WellTyped(o, r.value.value)
    decreases o, 0
  {
    var r := ToSer(L, w, o, e);
    if r.Ok? && r.value.Some? {
      var cs := w.entities[e].children.value;
      var rs := Probes(L, w, o.inner, cs);
      MatchCases(rs);
      if SeveralMatches(rs) {
        if !NoError(rs) {
          var i :| 0 <= i < |rs| && rs[i].Err?;
          FirstErrorExists(rs, i);
        }
      } else {
        var i :| OnlyMatch(rs, i);
        ToSerWellTyped(L, w, o.inner, cs[i]);
      }
    }
  }

  lemma {:induction false} ChildUncheckedWellTyped(L: Leaves, w: World, o: Obj, e: EntityId)
    requires o.ChildUnchecked?
    ensures var r := ToSer(L, w, o, e); r.Ok? && r.value.Some? ==> WellTyped(o, r.value.value)
    decreases o, 0
  {
    var r := ToSer(L, w, o, e);
    if r.Ok? && r.value.Some? {
      var cs := w.entities[e].children.value;
      var rs := Probes(L, w, o.inner, cs);
      if !NoMatch(rs) {
        var i :| 0 <= i < |rs| && Matched(rs[i]);
        FirstMatchExists(rs, i);
        var j :| FirstMatch(rs, j);
        ToSerWellTyped(L, w, o.inner, cs[j]);
      }
    }
  }

  lemma {:induction false} ChildVecWellTyped(L: Leaves, w: World, o: Obj, e: EntityId)
    requires o.ChildVec?
    ensures var r := ToSer(L, w, o, e); r.Ok? && r.value.Some? ==> WellTyped(o, r.value.value)
    decreases o, 0
  {
    var r := ToSer(L, w, o, e);
    if r.Ok? && r.value.Some? && w.entities[e].children.Some? {
      var cs := w.entities[e].children.value;
      var rs := Probes(L, w, o.inner, cs);
      if !NoError(rs) {
        var i :| 0 <= i < |rs| && rs[i].Err?;
        FirstErrorExists(rs, i);
      } else {
        forall x | x in r.value.value.items ensures WellTyped(o.inner, x) {
          var i :| 0 <= i < |rs| && rs[i] == Ok(Some(x));
          ToSerWellTyped(L, w, o.inner, cs[i]);
        }
      }
    }
  }

  lemma {:induction false} ChildMapWellTyped(L: Leaves, w: World, o: Obj, e: EntityId)
    requires o.ChildMap?
    ensures var r := ToSer(L, w, o, e); r.Ok? && r.value.Some? ==> WellTyped(o, r.value.value)
    decreases o, 0
  {
    var r := ToSer(L, w, o, e);
    if r.Ok? && r.value.Some? && w.entities[e].children.Some? {
      var (k, v) := (o.key, o.value);
      var cs := w.entities[e].children.value;
      var ks, vs := Probes(L, w, k, cs), Probes(L, w, v, cs);
      if !NoBad(ks, vs) {
        var i :| 0 <= i < |ks| && Bad(ks[i], vs[i]);
        FirstBadExists(ks, vs, i);
      } else {
        var es := r.value.value.entries;
        forall p | p in es ensures WellTyped(k, p.0) && WellTyped(v, p.1) {
          var j :| 0 <= j < |es| && es[j] == p;
          LookupEntry(es, j);
          var i :| 0 <= i < |ks| && ks[i] == Ok(Some(p.0)) && vs[i] == Ok(Some(p.1));
          ToSerWellTyped(L, w, k, cs[i]);
          ToSerWellTyped(L, w, v, cs[i]);
        }
      }
    }
  }

  lemma {:induction false} CompositeWellTyped(L: Leaves, w: World, o: Obj, e: EntityId)
    requires o.Composite?
    ensures var r := ToSer(L, w, o, e); r.Ok? && r.value.Some? ==> WellTyped(o, r.value.value)
    decreases o, 0
  {
    var r := ToSer(L, w, o, e);
    if r.Ok? && r.value.Some? {
      var rs := FieldProbes(L, w, o, e);
      if exists i :: 0 <= i < |rs| && !Present(rs[i]) {
        var i :| 0 <= i < |rs| && !Present(rs[i]);
        FirstAbsentExists(rs, i);
      } else {
        forall i | 0 <= i < |o.fields| ensures WellTyped(o.fields[i].obj, r.value.value.fields[i].1) {
          ToSerWellTyped(L, w, o.fields[i].obj, e);
        }
      }
    }
  }

  /** `Maybe` never reports "absent", so under `Child` every child is a match,
      whether or not it holds the inner object. Two children that do not fail
      make `Child<Maybe<T>>` fail with `MoreThenOne`, even when neither of them
      holds a `T`. A parent with no `Children` at all makes it absent, so as a
      composite's first field it fails the composite with `FieldMissing`. */
  lemma ChildOfMaybeCountsEveryChild(L: Leaves, w: World, t: Obj, e: EntityId,
                                     main: CompId, name: string, f: string, rest: seq<Field>)
    requires e in w.entities
    ensures var cs := w.entities[e].children;
      cs.Some? && |cs.value| >= 2 && (forall c :: c in cs.value ==> ToSer(L, w, t, c).Ok?) ==>
        ToSer(L, w, Child(Maybe(t)), e) == Err(MoreThenOne(e, Maybe(t)))
    ensures w.entities[e].children.None? ==> ToSer(L, w, Child(Maybe(t)), e) == Ok(None)
    ensures w.entities[e].children.None? && HasComponent(w, e, main) ==>
      ToSer(L, w, Composite(main, name, [Field(f, Child(Maybe(t)))] + rest), e) == Err(FieldMissing(f, name))
  {
    var cs := w.entities[e].children;
    if cs.Some? && |cs.value| >= 2 && (forall c :: c in cs.value ==> ToSer(L, w, t, c).Ok?) {
      var rs := Probes(L, w, Maybe(t), cs.value);
      assert Matched(rs[0]) && Matched(rs[1]);
      forall i | 0 <= i < |rs| ensures rs[i].Ok? {
        assert cs.value[i] in cs.value;
      }
    }
    if cs.None? && HasComponent(w, e, main) {
      var o := Composite(main, name, [Field(f, Child(Maybe(t)))] + rest);
      var rs := FieldProbes(L, w, o, e);
      assert rs[0] == Ok(None);
      assert FirstAbsent(rs, 0);
    }
  }

  /** "Zero or one `T` among the children, as an option", which is what
      `Maybe<Child<T>>` computes: `None` when the parent has no `Children` or
      no child holds a `T`, the child's value when exactly one does, and an
      error when several do. */
  function OptionalChild(t: Obj): Obj
  {
    Maybe(Child(t))
  }

  lemma OptionalChildFindsTheOne(L: Leaves, w: World, t: Obj, e: EntityId)
    ensures e !in w.entities ==> ToSer(L, w, OptionalChild(t), e) == Err(EntityNotFound(e))
    ensures e in w.entities && w.entities[e].children.None? ==> ToSer(L, w, OptionalChild(t), e) == Ok(Some(NoneDoc))
    ensures e in w.entities && w.entities[e].children.Some? ==>
      var rs := Probes(L, w, t, w.entities[e].children.value);
      && (NoMatch(rs) ==> ToSer(L, w, OptionalChild(t), e) == Ok(Some(NoneDoc)))
      && (forall i :: OnlyMatch(rs, i) && rs[i].Ok? ==>
            ToSer(L, w, OptionalChild(t), e) == Ok(Some(SomeDoc(rs[i].value.value))))
      && (forall i :: OnlyMatch(rs, i) && rs[i].Err? ==> ToSer(L, w, OptionalChild(t), e) == rs[i])
      && (SeveralMatches(rs) && NoError(rs) ==> ToSer(L, w, OptionalChild(t), e) == Err(MoreThenOne(e, t)))
      && (SeveralMatches(rs) ==> forall i :: FirstError(rs, i) ==> ToSer(L, w, OptionalChild(t), e) == rs[i])
  {
  }
}

=== FILE: results.dfy ===
/** Option and Result, the two wrappers the projection code returns. Both are
    failure-compatible, so `:-` propagates `None` / `Err` the way Rust's `?` does. */
module Results {

  datatype Option<+T> = None | Some(value: T) {
    predicate IsFailure() { None? }

    function PropagateFailure<U>(): Option<U>
      requires None?
    {
      None
    }

    function Extract(): T
      requires Some?
    {
      value
    }
  }

  datatype Result<+T, +E> = Ok(value: T) | Err(error: E) {
    predicate IsFailure() { Err? }

    function PropagateFailure<U>(): Result<U, E>
      requires Err?
    {
      Err(error)
    }

    function Extract(): T
      requires Ok?
    {
      value
    }
  }
}

=== FILE: roundtrips.dfy ===
/** Load then save, for lists and maps of components kept in children: when
    each component's conversion back to a document undoes its conversion from
    one, `to_ser` reads back exactly the document `from_de` wrote. */
module RoundTrips {
  import opened Results
  import opened Docs
  import opened SortedMaps
  import opened Worlds
  import opened Objects
  import opened Extractors
  import opened Project
  import opened Materialize

  /** Serializing a component decoded from `d` gives `d` again. */
  ghost predicate Inverse(L: Leaves, c: CompId)
  {
    forall d, v :: L.de(c, d) == Ok(v) ==> L.ser(c, v) == Ok(d)
  }

  /** Entity `x` holds component `c` decoded from `d`. */
  ghost predicate Holds(L: Leaves, w: World, x: EntityId, c: CompId, d: Doc)
  {
    x in w.entities && c in w.entities[x].components
    && L.de(c, d).Ok? && w.entities[x].components[c] == L.de(c, d).value
  }

  /** A write that extends the world around `e` keeps what other entities hold. */
  lemma HoldsKept(L: Leaves, w: World, w2: World, e: EntityId, x: EntityId, c: CompId, d: Doc)
    requires Extends(w, w2, e) && x != e && Holds(L, w, x, c, d)
    ensures Holds(L, w2, x, c, d)
  {
  }

  /** One `Child<C>` step: the spawned child holds `C` decoded from `d`. */
  lemma SpawnLeafChild(L: Leaves, w: World, c: CompId, e: EntityId, d: Doc)
    requires Valid(w) && e in w.entities
    requires SpawnChild(L, w, Leaf(c), e, d).failure.None?
    ensures var r := SpawnChild(L, w, Leaf(c), e, d);
      && Extends(w, r.world, e)
      && ChildrenOf(r.world, e) == ChildrenOf(w, e) + [w.next]
      && w.next != e && Holds(L, r.world, w.next, c, d)
  {
    SpawnChildExtends(L, w, Leaf(c), e, d);
  }

  /** Children `cs` of `e` hold `C` decoded from the items, one item each. */
  ghost predicate ItemsHeld(L: Leaves, w: World, e: EntityId, cs: seq<EntityId>, c: CompId, items: seq<Doc>)
  {
    |cs| == |items| && forall j :: 0 <= j < |items| ==> cs[j] != e && Holds(L, w, cs[j], c, items[j])
  }

  lemma ItemsHeldCons(L: Leaves, w: World, e: EntityId, x: EntityId, cs: seq<EntityId>, c: CompId, d: Doc, items: seq<Doc>)
    requires x != e && Holds(L, w, x, c, d) && ItemsHeld(L, w, e, cs, c, items)
    ensures ItemsHeld(L, w, e, [x] + cs, c, [d] + items)
  {
    forall j | 0 <= j < |items| + 1 ensures ([x] + cs)[j] != e && Holds(L, w, ([x] + cs)[j], c, ([d] + items)[j]) {
      if j > 0 { assert ([x] + cs)[j] == cs[j - 1] && ([d] + items)[j] == items[j - 1]; }
    }
  }

  /** One step of a child-list load, away from the load itself: a child `x`
      appended to `e` and holding `d`, followed by a write that extends the
      world and leaves `items` held by the children after `x`, leaves
      `[d] + items` held by the children after the original ones. */
  lemma ItemsHeldStep(L: Leaves, w: World, w1: World, wf: World, e: EntityId, x: EntityId, c: CompId,
                      d: Doc, items: seq<Doc>)
    requires e in w.entities && ChildrenOf(w1, e) == ChildrenOf(w, e) + [x]
    requires x != e && Holds(L, w1, x, c, d) && Extends(w1, wf, e)
    requires ItemsHeld(L, wf, e, ChildrenOf(wf, e)[|ChildrenOf(w1, e)|..], c, items)
    ensures ItemsHeld(L, wf, e, ChildrenOf(wf, e)[|ChildrenOf(w, e)|..], c, [d] + items)
  {
    HoldsKept(L, w1, wf, e, x, c, d);
    var n := |ChildrenOf(w, e)|;
    var now := ChildrenOf(wf, e);
    assert now[n] == x by {
      assert now[..n + 1] == ChildrenOf(w1, e);
      assert now[n] == now[..n + 1][n];
    }
    ItemsHeldCons(L, wf, e, x, now[n + 1..], c, d, items);
    assert [x] + now[n + 1..] == now[n..];
  }

  /** A successful `ChildVec<C>` load appends one child per item, and the
      child for item `j` holds `C` decoded from that item. */
  lemma {:induction false} LeafItemsWritten(L: Leaves, w: World, c: CompId, e: EntityId, items: seq<Doc>)
    requires Valid(w) && e in w.entities
    requires SpawnItems(L, w, Leaf(c), e, items).failure.None?
    ensures var wf := SpawnItems(L, w, Leaf(c), e, items).world;
      var n := |ChildrenOf(w, e)|;
      && |ChildrenOf(wf, e)| == n + |items|
      && ChildrenOf(wf, e)[..n] == ChildrenOf(w, e)
      && ItemsHeld(L, wf, e, ChildrenOf(wf, e)[n..], c, items)
    decreases |items|
  {
    SpawnItemsExtends(L, w, Leaf(c), e, items);
    if |items| > 0 {
      var r1 := SpawnChild(L, w, Leaf(c), e, items[0]);
      SpawnLeafChild(L, w, c, e, items[0]);
      var wf := SpawnItems(L, r1.world, Leaf(c), e, items[1..]).world;
      assert wf == SpawnItems(L, w, Leaf(c), e, items).world;
      LeafItemsWritten(L, r1.world, c, e, items[1..]);
      SpawnItemsExtends(L, r1.world, Leaf(c), e, items[1..]);
      ItemsHeldStep(L, w, r1.world, wf, e, w.next, c, items[0], items[1..]);
      assert [items[0]] + items[1..] == items;
    }
  }

  /** A component decoded from `d` saves back to `d`. */
  lemma HeldSavesBack(L: Leaves, w: World, x: EntityId, c: CompId, d: Doc)
    requires Holds(L, w, x, c, d) && Inverse(L, c)
    ensures ToSer(L, w, Leaf(c), x) == Ok(Some(d))
  {
  }

  /** After a successful `ChildVec` load into a parent without children,
      child `j` saves back to item `j`. */
  lemma LeafItemsSaved(L: Leaves, w: World, c: CompId, e: EntityId, items: seq<Doc>)
    requires Valid(w) && e in w.entities && ChildrenOf(w, e) == [] && Inverse(L, c)
    requires SpawnItems(L, w, Leaf(c), e, items).failure.None?
    ensures var wf := SpawnItems(L, w, Leaf(c), e, items).world;
      && |ChildrenOf(wf, e)| == |items|
      && forall j :: 0 <= j < |items| ==> ToSer(L, wf, Leaf(c), ChildrenOf(wf, e)[j]) == Ok(Some(items[j]))
  {
    var wf := SpawnItems(L, w, Leaf(c), e, items).world;
    LeafItemsWritten(L, w, c, e, items);
    var cs := ChildrenOf(wf, e);
    assert cs[0..] == cs;
    forall j | 0 <= j < |items| ensures ToSer(L, wf, Leaf(c), cs[j]) == Ok(Some(items[j])) {
      HeldSavesBack(L, wf, cs[j], c, items[j]);
    }
  }

  /** Children that each save to one item collect into exactly that list. */
  lemma CollectItems(rs: seq<Probe>, items: seq<Doc>)
    requires |rs| == |items| && forall j :: 0 <= j < |rs| ==> rs[j] == Ok(Some(items[j]))
    ensures ChildVecSer(rs) == Ok(Some(Seq(items)))
  {
    SomeValuesAll(rs, items);
  }

  /** Writing a list of components into fresh children of a parent that had
      none, then reading the list back, gives the same list. */
  lemma ChildVecLeafRoundTrip(L: Leaves, w: World, c: CompId, e: EntityId, items: seq<Doc>)
    requires Valid(w) && e in w.entities && ChildrenOf(w, e) == [] && Inverse(L, c)
    requires FromDe(L, w, ChildVec(Leaf(c)), e, Seq(items)).failure.None?
    ensures ToSer(L, FromDe(L, w, ChildVec(Leaf(c)), e, Seq(items)).world, ChildVec(Leaf(c)), e) == Ok(Some(Seq(items)))
  {
    var wf := FromDe(L, w, ChildVec(Leaf(c)), e, Seq(items)).world;
    assert FromDe(L, w, ChildVec(Leaf(c)), e, Seq(items)) == SpawnItems(L, w, Leaf(c), e, items);
    LeafItemsSaved(L, w, c, e, items);
    SpawnItemsExtends(L, w, Leaf(c), e, items);
    if wf.entities[e].children.Some? {
      var cs := wf.entities[e].children.value;
      assert cs == ChildrenOf(wf, e);
      CollectItems(Probes(L, wf, Leaf(c), cs), items);
    }
  }

  /** One `ChildMap<K, V>` step: the spawned child holds `K` decoded from the
      key and `V` decoded from the value. */
  lemma SpawnLeafEntry(L: Leaves, w: World, kc: CompId, vc: CompId, e: EntityId, p: (Doc, Doc))
    requires Valid(w) && e in w.entities && kc != vc
    requires SpawnEntry(L, w, ChildMap(Leaf(kc), Leaf(vc)), e, p).failure.None?
    ensures var r := SpawnEntry(L, w, ChildMap(Leaf(kc), Leaf(vc)), e, p);
      && Extends(w, r.world, e)
      && ChildrenOf(r.world, e) == ChildrenOf(w, e) + [w.next]
      && w.next != e && Holds(L, r.world, w.next, kc, p.0) && Holds(L, r.world, w.next, vc, p.1)
  {
    var o := ChildMap(Leaf(kc), Leaf(vc));
    SpawnEntryExtends(L, w, o, e, p);
    var (w1, c0) := Spawn(w);
    var r1 := FromDe(L, w1, Leaf(kc), c0, p.0);
    assert Holds(L, r1.world, c0, kc, p.0);
    var r2 := FromDe(L, r1.world, Leaf(vc), c0, p.1);
    assert Holds(L, r2.world, c0, kc, p.0) && Holds(L, r2.world, c0, vc, p.1);
  }

  /** The keys and the values of map entries, in entry order. */
  function KeysOf(es: seq<(Doc, Doc)>): (ks: seq<Doc>)
    ensures |ks| == |es| && forall j :: 0 <= j < |es| ==> ks[j] == es[j].0
  {
    seq(|es|, j requires 0 <= j < |es| => es[j].0)
  }

  function ValuesOf(es: seq<(Doc, Doc)>): (vs: seq<Doc>)
    ensures |vs| == |es| && forall j :: 0 <= j < |es| ==> vs[j] == es[j].1
  {
    seq(|es|, j requires 0 <= j < |es| => es[j].1)
  }

  lemma HalvesCons(es: seq<(Doc, Doc)>)
    requires |es| > 0
    ensures KeysOf(es) == [es[0].0] + KeysOf(es[1..])
    ensures ValuesOf(es) == [es[0].1] + ValuesOf(es[1..])
  {
    assert KeysOf(es) == [es[0].0] + KeysOf(es[1..]);
    assert ValuesOf(es) == [es[0].1] + ValuesOf(es[1..]);
  }

  /** `ItemsHeldStep` for both halves of the first map entry. */
  lemma EntriesHeldStep(L: Leaves, w: World, w1: World, wf: World, e: EntityId, x: EntityId, kc: CompId, vc: CompId,
                        es: seq<(Doc, Doc)>)
    requires |es| > 0 && e in w.entities && ChildrenOf(w1, e) == ChildrenOf(w, e) + [x]
    requires x != e && Holds(L, w1, x, kc, es[0].0) && Holds(L, w1, x, vc, es[0].1) && Extends(w1, wf, e)
    requires ItemsHeld(L, wf, e, ChildrenOf(wf, e)[|ChildrenOf(w1, e)|..], kc, KeysOf(es[1..]))
    requires ItemsHeld(L, wf, e, ChildrenOf(wf, e)[|ChildrenOf(w1, e)|..], vc, ValuesOf(es[1..]))
    ensures ItemsHeld(L, wf, e, ChildrenOf(wf, e)[|ChildrenOf(w, e)|..], kc, KeysOf(es))
    ensures ItemsHeld(L, wf, e, ChildrenOf(wf, e)[|ChildrenOf(w, e)|..], vc, ValuesOf(es))
  {
    HalvesCons(es);
    ItemsHeldStep(L, w, w1, wf, e, x, kc, es[0].0, KeysOf(es[1..]));
    ItemsHeldStep(L, w, w1, wf, e, x, vc, es[0].1, ValuesOf(es[1..]));
  }

  /** A successful `ChildMap<K, V>` load appends one child per entry, in key
      order, and the child for entry `j` holds both halves of that entry:
      `K` decoded from its key and `V` decoded from its value. */
  lemma {:induction false} LeafEntriesWritten(L: Leaves, w: World, kc: CompId, vc: CompId, e: EntityId, es: seq<(Doc, Doc)>)
    requires Valid(w) && e in w.entities && kc != vc
    requires SpawnEntries(L, w, ChildMap(Leaf(kc), Leaf(vc)), e, es).failure.None?
    ensures var wf := SpawnEntries(L, w, ChildMap(Leaf(kc), Leaf(vc)), e, es).world;
      var n := |ChildrenOf(w, e)|;
      && |ChildrenOf(wf, e)| == n + |es|
      && ChildrenOf(wf, e)[..n] == ChildrenOf(w, e)
      && ItemsHeld(L, wf, e, ChildrenOf(wf, e)[n..], kc, KeysOf(es))
      && ItemsHeld(L, wf, e, ChildrenOf(wf, e)[n..], vc, ValuesOf(es))
    decreases |es|
  {
    var o := ChildMap(Leaf(kc), Leaf(vc));
    SpawnEntriesExtends(L, w, o, e, es);
    if |es| > 0 {
      var r1 := SpawnEntry(L, w, o, e, es[0]);
      SpawnLeafEntry(L, w, kc, vc, e, es[0]);
      var wf := SpawnEntries(L, r1.world, o, e, es[1..]).world;
      assert wf == SpawnEntries(L, w, o, e, es).world;
      LeafEntriesWritten(L, r1.world, kc, vc, e, es[1..]);
      SpawnEntriesExtends(L, r1.world, o, e, es[1..]);
      EntriesHeldStep(L, w, r1.world, wf, e, w.next, kc, vc, es);
    }
  }

  /** Children that carry the entries of a sorted map, one entry each, collect
      back into exactly that map. */
  lemma CollectSortedEntries(kty: Obj, vty: Obj, ks: seq<Probe>, vs: seq<Probe>, es: Entries)
    requires |ks| == |vs| == |es| && Sorted(es)
    requires forall j :: 0 <= j < |es| ==> ks[j] == Ok(Some(es[j].0)) && vs[j] == Ok(Some(es[j].1))
    ensures ChildMapSer(kty, vty, ks, vs) == Ok(Some(Map(es)))
  {
    LastValueDistinct(ks, vs, es);
    var r := ChildMapSer(kty, vty, ks, vs);
    SortedExtensional(r.value.value.entries, es);
  }

  /** Writing a map into fresh children of a parent that had none, with key
      and value kept in two different components, then reading the map back,
      gives the same map. */
  lemma ChildMapLeafRoundTrip(L: Leaves, w: World, kc: CompId, vc: CompId, e: EntityId, es: seq<(Doc, Doc)>)
    requires Valid(w) && e in w.entities && ChildrenOf(w, e) == []
    requires kc != vc && Inverse(L, kc) && Inverse(L, vc)
    requires WellTyped(ChildMap(Leaf(kc), Leaf(vc)), Map(es))
    requires FromDe(L, w, ChildMap(Leaf(kc), Leaf(vc)), e, Map(es)).failure.None?
    ensures ToSer(L, FromDe(L, w, ChildMap(Leaf(kc), Leaf(vc)), e, Map(es)).world, ChildMap(Leaf(kc), Leaf(vc)), e)
      == Ok(Some(Map(es)))
  {
    var o := ChildMap(Leaf(kc), Leaf(vc));
    var wf := FromDe(L, w, o, e, Map(es)).world;
    LeafEntriesWritten(L, w, kc, vc, e, es);
    SpawnEntriesExtends(L, w, o, e, es);
    if wf.entities[e].children.Some? {
      var cs := wf.entities[e].children.value;
      assert cs == ChildrenOf(wf, e);
      var ks, vs := Probes(L, wf, Leaf(kc), cs), Probes(L, wf, Leaf(vc), cs);
      assert cs[0..] == cs;
      forall j | 0 <= j < |es| ensures ks[j] == Ok(Some(es[j].0)) && vs[j] == Ok(Some(es[j].1)) {
        HeldSavesBack(L, wf, cs[j], kc, es[j].0);
        HeldSavesBack(L, wf, cs[j], vc, es[j].1);
      }
      CollectSortedEntries(Leaf(kc), Leaf(vc), ks, vs, es);
    }
  }
}

=== FILE: sorted_maps.dfy ===
/** A `BTreeMap<Doc, Doc>` as the list of its entries in ascending key order.
    `Insert` is `BTreeMap::insert`: a key already present keeps its position and
    takes the new value, so when entries are collected one after another the
    last value written for a key wins. */
module SortedMaps {
  import opened Results
  import opened Docs

  type Entries = seq<(Doc, Doc)>

  /** Keys strictly ascend, hence no key occurs twice. */
  ghost predicate Sorted(es: Entries)
  {
    forall i, j :: 0 <= i < j < |es| ==> DocLess(es[i].0, es[j].0)
  }

  function Keys(es: Entries): set<Doc>
  {
    set i | 0 <= i < |es| :: es[i].0
  }

  /** `BTreeMap::get`. */
  function Lookup(es: Entries, k: Doc): (r: Option<Doc>)
    ensures r.Some? <==> k in Keys(es)
  {
    if |es| == 0 then None
    else if es[0].0 == k then Some(es[0].1)
    else
      var r := Lookup(es[1..], k);
      assert Keys(es) == {es[0].0} + Keys(es[1..]) by {
        forall x | x in Keys(es) ensures x in {es[0].0} + Keys(es[1..]) {
          var i :| 0 <= i < |es| && es[i].0 == x;
          if i > 0 { assert es[1..][i - 1].0 == x; }
        }
      }
      r
  }

  lemma SortedTail(es: Entries)
    requires Sorted(es) && |es| > 0
    ensures Sorted(es[1..])
    ensures forall x :: x in Keys(es[1..]) ==> DocLess(es[0].0, x)
  {
    forall x | x in Keys(es[1..]) ensures DocLess(es[0].0, x) {
      var i :| 0 <= i < |es[1..]| && es[1..][i].0 == x;
      assert es[i + 1].0 == x;
    }
  }

  lemma SortedCons(p: (Doc, Doc), es: Entries)
    requires Sorted(es)
    requires forall x :: x in Keys(es) ==> DocLess(p.0, x)
    ensures Sorted([p] + es)
  {
    var r := [p] + es;
    forall i, j | 0 <= i < j < |r| ensures DocLess(r[i].0, r[j].0) {
      if i == 0 {
        assert r[j].0 == es[j - 1].0;
        assert es[j - 1].0 in Keys(es);
      } else {
        assert r[i] == es[i - 1] && r[j] == es[j - 1];
      }
    }
  }

  lemma KeysCons(p: (Doc, Doc), es: Entries)
    ensures Keys([p] + es) == {p.0} + Keys(es)
  {
    var r := [p] + es;
    forall x | x in Keys(r) ensures x in {p.0} + Keys(es) {
      var i :| 0 <= i < |r| && r[i].0 == x;
      if i > 0 { assert es[i - 1].0 == x; }
    }
    forall x | x in Keys(es) ensures x in Keys(r) {
      var i :| 0 <= i < |es| && es[i].0 == x;
      assert r[i + 1].0 == x;
    }
    assert r[0].0 == p.0;
  }

  /** `BTreeMap::insert`. */
  function Insert(es: Entries, k: Doc, v: Doc): (r: Entries)
    requires Sorted(es)
    ensures Sorted(r)
    ensures Keys(r) == Keys(es) + {k}
    ensures Lookup(r, k) == Some(v)
    ensures forall k' :: k' != k ==> Lookup(r, k') == Lookup(es, k')
  {
    if |es| == 0 then
      KeysCons((k, v), []);
      [(k, v)]
    else if es[0].0 == k then
      SortedTail(es);
      SortedCons((k, v), es[1..]);
      KeysCons((k, v), es[1..]);
      KeysCons(es[0], es[1..]);
      assert es == [es[0]] + es[1..];
      [(k, v)] + es[1..]
    else if DocLess(k, es[0].0) then
      SortedTail(es);
      forall x | x in Keys(es) ensures DocLess(k, x) {
        if x != es[0].0 { DocLessTransitive(k, es[0].0, x); }
      }
      SortedCons((k, v), es);
      KeysCons((k, v), es);
      [(k, v)] + es
    else
      SortedTail(es);
      DocLessTotal(k, es[0].0);
      var rest := Insert(es[1..], k, v);
      SortedCons(es[0], rest);
      KeysCons(es[0], rest);
      KeysCons(es[0], es[1..]);
      assert es == [es[0]] + es[1..];
      [es[0]] + rest
  }

  /** In sorted entries every key occurs once, so `get` finds each entry's own value. */
  lemma {:induction false} LookupEntry(es: Entries, i: int)
    requires Sorted(es) && 0 <= i < |es|
    ensures Lookup(es, es[i].0) == Some(es[i].1)
    decreases i
  {
    if i > 0 {
      assert DocLess(es[0].0, es[i].0);
      if es[0].0 == es[i].0 { DocLessIrreflexive(es[0].0); }
      SortedTail(es);
      assert es[1..][i - 1] == es[i];
      LookupEntry(es[1..], i - 1);
    }
  }

  /** Sorted entries are determined by their lookups: two sorted maps that
      agree on every key are the same list. */
  lemma {:induction false} SortedExtensional(a: Entries, b: Entries)
    requires Sorted(a) && Sorted(b)
    requires forall k :: Lookup(a, k) == Lookup(b, k)
    ensures a == b
    decreases |a|
  {
    if |a| == 0 {
      if |b| > 0 { LookupEntry(b, 0); }
    } else if |b| == 0 {
      LookupEntry(a, 0);
    } else {
      var x, y := a[0].0, b[0].0;
      if x != y {
        assert Lookup(b, x).Some? && Lookup(a, y).Some?;
        var j :| 0 <= j < |b| && b[j].0 == x;
        var i :| 0 <= i < |a| && a[i].0 == y;
        assert DocLess(y, x) && DocLess(x, y);
        DocLessTransitive(x, y, x);
        DocLessIrreflexive(x);
      }
      LookupEntry(a, 0);
      LookupEntry(b, 0);
      SortedTail(a);
      SortedTail(b);
      forall k ensures Lookup(a[1..], k) == Lookup(b[1..], k) {
        if k == x {
          if k in Keys(a[1..]) { DocLessIrreflexive(x); }
          if k in Keys(b[1..]) { DocLessIrreflexive(x); }
        } else {
          assert Lookup(a, k) == Lookup(a[1..], k) && Lookup(b, k) == Lookup(b[1..], k);
        }
      }
      SortedExtensional(a[1..], b[1..]);
      assert a == [a[0]] + a[1..] && b == [b[0]] + b[1..];
    }
  }
}

=== FILE: typetags.dfy ===
/** Trait objects serialized as externally tagged values: a one-entry map from
    the implementor's name to its untagged value. Encoding needs nothing but
    the value; decoding needs the registry of decoders, which is bound only
    while a save or load runs (`scoped`) and is passed here explicitly as
    `Option<Registry>`. */
module TypeTags {
  import opened Results
  import opened Docs

  /** Identifies the trait object type (`TypeId::of::<T>()`). */
  type TraitId = string

  /** A trait object value: its `name()` and its untagged `as_serialize()` form. */
  datatype Tagged = Tagged(name: string, inner: Doc)

  /** A registered deserialization function: untagged document to trait object. */
  type Decoder = Doc -> Result<Tagged, string>

  /** One implementor, as `register::<T, A>` sees it: `A::name()` and the
      decoder that deserializes an `A` and converts it into `T`. */
  datatype Variant = Variant(name: string, decode: Decoder)

  /** `TypeTagServer`: decoders keyed by trait and implementor name. */
  datatype Registry = Registry(functions: map<(TraitId, string), Decoder>)

  /** `TypeTagServer::default()`. */
  const EmptyRegistry: Registry := Registry(map[])

  /** `TypeTagServer::get::<T>(name)`. */
  function Get(r: Registry, t: TraitId, name: string): (f: Option<Decoder>)
    ensures f.Some? <==> (t, name) in r.functions
  {
    if (t, name) in r.functions then Some(r.functions[(t, name)]) else None
  }

  /** `TypeTagServer::clear`. */
  function Clear(r: Registry): (c: Registry)
    ensures forall t, name :: Get(c, t, name) == None
  {
    EmptyRegistry
  }

  /** `TypeTagServer::register::<T, A>`: the entry for `(T, A::name())` is
      inserted, replacing any earlier one; every other entry is kept. */
  function Register(r: Registry, t: TraitId, v: Variant): (r2: Registry)
    ensures Get(r2, t, v.name) == Some(v.decode)
    ensures forall t', name :: (t', name) != (t, v.name) ==> Get(r2, t', name) == Get(r, t', name)
  {
    Registry(r.functions[(t, v.name) := v.decode])
  }

  /** `register` once per variant, in order. */
  function RegisterAll(r: Registry, t: TraitId, vs: seq<Variant>): Registry
    decreases |vs|
  {
    if |vs| == 0 then r else RegisterAll(Register(r, t, vs[0]), t, vs[1..])
  }

  /** The decoder of the last variant in `vs` called `name`. */
  function LastDecoder(vs: seq<Variant>, name: string): (f: Option<Decoder>)
    ensures f.None? <==> forall i :: 0 <= i < |vs| ==> vs[i].name != name
    ensures f.Some? ==> exists i :: 0 <= i < |vs| && vs[i].name == name && vs[i].decode == f.value
  {
    if |vs| == 0 then None
    else if vs[|vs| - 1].name == name then Some(vs[|vs| - 1].decode)
    else
      var f := LastDecoder(vs[..|vs| - 1], name);
      assert forall i :: 0 <= i < |vs| - 1 ==> vs[..|vs| - 1][i] == vs[i];
      f
  }

  /** Registering variants under trait `t` makes each name resolve to the last
      variant registered under it; names not registered, and every other trait,
      resolve as before. */
  lemma {:induction false} GetAfterRegisterAll(r: Registry, t: TraitId, vs: seq<Variant>, t': TraitId, name: string)
    ensures Get(RegisterAll(r, t, vs), t', name) ==
      if t' == t && LastDecoder(vs, name).Some? then LastDecoder(vs, name) else Get(r, t', name)
    decreases |vs|
  {
    if |vs| > 0 {
      var r1 := Register(r, t, vs[0]);
      GetAfterRegisterAll(r1, t, vs[1..], t', name);
      LastDecoderCons(vs, name);
    }
  }

  lemma {:induction false} LastDecoderCons(vs: seq<Variant>, name: string)
    requires |vs| > 0
    ensures LastDecoder(vs, name) ==
      if LastDecoder(vs[1..], name).Some? then LastDecoder(vs[1..], name)
      else if vs[0].name == name then Some(vs[0].decode) else None
    decreases |vs|
  {
    if |vs| > 1 {
      var init := vs[..|vs| - 1];
      assert init[1..] == vs[1..][..|vs[1..]| - 1];
      assert vs[1..][|vs[1..]| - 1] == vs[|vs| - 1];
      LastDecoderCons(init, name);
    }
  }

  // ---------------------------------------------------------------------------
  // Encoding and decoding
  // ---------------------------------------------------------------------------

  /** `Serialize for TypeTagged<V>`: a map with the single entry `name => inner`. */
  function Encode(v: Tagged): (d: Doc)
    ensures d.Map? && |d.entries| == 1
    ensures d.entries[0] == (Str(v.name), v.inner)
  {
    Map([(Str(v.name), v.inner)])
  }

  /** Why decoding a tagged value failed, in the order the checks are made. */
  datatype DecodeError =
    | InvalidType(expected: string)
    | NoTag
    | OutsideScope
    | Unregistered(tag: string)
    | DecoderFailed(message: string)

  /** What the visitor reports it expects. */
  const Expecting: string := "externally tagged enum"

  /** The text of each error. */
  function Message(e: DecodeError): string
  {
    match e
    case InvalidType(x) => "invalid type, expected " + x
    case NoTag => "expected externally tagged value"
    case OutsideScope => "cannot deserialize `TypeTagged` value outside the `save` context."
    case Unregistered(tag) => "unregistered type-tag " + tag
    case DecoderFailed(m) => m
  }

  /** The tag of a document that has one: a map whose first key is a string. */
  predicate HasTag(d: Doc)
  {
    d.Map? && |d.entries| > 0 && d.entries[0].0.Str?
  }

  function TagOf(d: Doc): string
    requires HasTag(d)
  {
    d.entries[0].0.text
  }

  /** `TypeTaggedVisitor::visit_map` under trait `t`, with the registry bound
      (`Some`) or not (`None`). Only the first entry is read. */
  function Decode(scope: Option<Registry>, t: TraitId, d: Doc): (r: Result<Tagged, DecodeError>)
    ensures r == Err(NoTag) <==> d.Map? && |d.entries| == 0
    ensures r == Err(OutsideScope) <==> HasTag(d) && scope.None?
    ensures (exists tag :: r == Err(Unregistered(tag))) <==>
      HasTag(d) && scope.Some? && Get(scope.value, t, TagOf(d)).None?
    ensures r.Err? && r.error.Unregistered? ==> r.error.tag == TagOf(d)
    ensures r.Ok? <==>
      && HasTag(d) && scope.Some? && Get(scope.value, t, TagOf(d)).Some?
      && Get(scope.value, t, TagOf(d)).value(d.entries[0].1).Ok?
    ensures r.Ok? ==> r.value == Get(scope.value, t, TagOf(d)).value(d.entries[0].1).value
  {
    if !d.Map? then Err(InvalidType(Expecting))
    else if |d.entries| == 0 then Err(NoTag)
    else if !d.entries[0].0.Str? then Err(InvalidType("a string"))
    else if scope.None? then Err(OutsideScope)
    else match Get(scope.value, t, d.entries[0].0.text)
      case None => Err(Unregistered(d.entries[0].0.text))
      case Some(f) =>
        match f(d.entries[0].1)
        case Ok(v) => Ok(v)
        case Err(m) => Err(DecoderFailed(m))
  }

  /** The text a failed decode reports for the three checks `visit_map`
      makes itself: the missing tag, the unbound scope, and the unknown tag,
      which is named. */
  lemma DecodeErrorText(scope: Option<Registry>, t: TraitId, d: Doc)
    ensures d.Map? && |d.entries| == 0 ==>
      Decode(scope, t, d).Err? && Message(Decode(scope, t, d).error) == "expected externally tagged value"
    ensures HasTag(d) && scope.None? ==>
      Decode(scope, t, d).Err? &&
      Message(Decode(scope, t, d).error) == "cannot deserialize `TypeTagged` value outside the `save` context."
    ensures HasTag(d) && scope.Some? && Get(scope.value, t, TagOf(d)).None? ==>
      Decode(scope, t, d).Err? && Message(Decode(scope, t, d).error) == "unregistered type-tag " + TagOf(d)
  {
  }

  /** `scoped`: runs `f` with the registry bound; outside `f` it is unbound again. */
  function Scoped<T>(r: Registry, f: Option<Registry> -> T): T
  {
    f(Some(r))
  }

  /** `f` undoes the encoding of the variant called `name`. */
  ghost predicate Inverts(f: Decoder, name: string)
  {
    forall x, v :: f(x) == Ok(v) ==> v == Tagged(name, x)
  }

  /** Outside a scope every tagged document is rejected, and inside `Scoped`
      the registry is the one bound. */
  lemma ScopeBoundary(r: Registry, t: TraitId, v: Tagged)
    ensures Decode(None, t, Encode(v)) == Err(OutsideScope)
    ensures Scoped(r, (s: Option<Registry>) => Decode(s, t, Encode(v))) == Decode(Some(r), t, Encode(v))
  {
  }

  /** Decoding an encoded value, with its variant's inverting decoder
      registered, gives the value back; encoding it again gives the same document. */
  lemma RoundTrip(r: Registry, t: TraitId, v: Tagged)
    requires Get(r, t, v.name).Some? && Inverts(Get(r, t, v.name).value, v.name)
    requires Get(r, t, v.name).value(v.inner).Ok?
    ensures Decode(Some(r), t, Encode(v)) == Ok(v)
    ensures Encode(Decode(Some(r), t, Encode(v)).value) == Encode(v)
  {
  }

  /** The same for a registry built by registering variants in order: the
      decoder used is the last one registered under the value's name. */
  lemma RoundTripRegistered(r: Registry, t: TraitId, vs: seq<Variant>, v: Tagged, i: int)
    requires 0 <= i < |vs| && vs[i].name == v.name
    requires forall j :: 0 <= j < |vs| && vs[j].name == v.name ==> j <= i
    requires Inverts(vs[i].decode, v.name) && vs[i].decode(v.inner).Ok?
    ensures Decode(Some(RegisterAll(r, t, vs)), t, Encode(v)) == Ok(v)
  {
    GetAfterRegisterAll(r, t, vs, t, v.name);
    LastIsAt(vs, v.name, i);
  }

  lemma {:induction false} LastIsAt(vs: seq<Variant>, name: string, i: int)
    requires 0 <= i < |vs| && vs[i].name == name
    requires forall j :: 0 <= j < |vs| && vs[j].name == name ==> j <= i
    ensures LastDecoder(vs, name) == Some(vs[i].decode)
    decreases |vs|
  {
    if i < |vs| - 1 {
      var init := vs[..|vs| - 1];
      assert init[i] == vs[i];
      forall j | 0 <= j < |init| && init[j].name == name ensures j <= i {
        assert init[j] == vs[j];
      }
      LastIsAt(init, name, i);
    }
  }
}

=== FILE: worlds.dfy ===
/** The entity store, reduced to what the projection touches: entities keyed by
    id, each holding its components by type and, optionally, a `Children`
    component listing its children in order. Ids are never reused: `next` is
    the id the next `spawn` hands out. */
module Worlds {
  import opened Results
  import opened Docs

  type EntityId = nat

  /** A component type, named by its type path. */
  type CompId = string

  /** A component's stored value. Component types are opaque here; their
      payload is kept as the serde value they carry. */
  type Value = Doc

  datatype Entity = Entity(components: map<CompId, Value>, children: Option<seq<EntityId>>)

  datatype World = World(entities: map<EntityId, Entity>, next: EntityId)

  /** Every live id was handed out by an earlier `spawn`. */
  ghost predicate Valid(w: World)
  {
    forall x :: x in w.entities ==> x < w.next
  }

  predicate HasComponent(w: World, e: EntityId, c: CompId)
  {
    e in w.entities && c in w.entities[e].components
  }

  /** The entity's `Children` list, empty when it has none. */
  function ChildrenOf(w: World, e: EntityId): seq<EntityId>
  {
    if e in w.entities && w.entities[e].children.Some? then w.entities[e].children.value else []
  }

  /** `world.spawn(())`: a fresh entity with no components and no children. */
  function Spawn(w: World): (r: (World, EntityId))
    ensures r.1 == w.next && r.0.next == w.next + 1
    ensures r.0.entities == w.entities[r.1 := Entity(map[], None)]
    ensures Valid(w) ==> r.1 !in w.entities && Valid(r.0)
  {
    (World(w.entities[w.next := Entity(map[], None)], w.next + 1), w.next)
  }

  /** `entity_mut(e).insert(component)`: `None` when `e` does not exist (Bevy panics there). */
  function InsertComponent(w: World, e: EntityId, c: CompId, v: Value): (r: Option<World>)
    ensures r.Some? <==> e in w.entities
    ensures r.Some? ==> HasComponent(r.value, e, c) && r.value.entities[e].components[c] == v
    ensures r.Some? ==> r.value.next == w.next && r.value.entities.Keys == w.entities.Keys
    ensures r.Some? ==> forall x :: x in w.entities && x != e ==> r.value.entities[x] == w.entities[x]
    ensures r.Some? ==> ChildrenOf(r.value, e) == ChildrenOf(w, e)
  {
    if e !in w.entities then None
    else
      var ent := w.entities[e];
      Some(w.(entities := w.entities[e := ent.(components := ent.components[c := v])]))
  }

  /** `entity_mut(parent).add_child(child)` for a child that has no parent yet:
      the child is appended to the parent's `Children`, which is created when
      missing. `None` when `parent` does not exist (Bevy panics there). */
  function AddChild(w: World, parent: EntityId, child: EntityId): (r: Option<World>)
    ensures r.Some? <==> parent in w.entities
    ensures r.Some? ==> ChildrenOf(r.value, parent) == ChildrenOf(w, parent) + [child]
    ensures r.Some? ==> r.value.next == w.next && r.value.entities.Keys == w.entities.Keys
    ensures r.Some? ==> forall x :: x in w.entities && x != parent ==> r.value.entities[x] == w.entities[x]
    ensures r.Some? ==> r.value.entities[parent].components == w.entities[parent].components
  {
    if parent !in w.entities then None
    else
      var ent := w.entities[parent];
      var kids := if ent.children.Some? then ent.children.value else [];
      Some(w.(entities := w.entities[parent := ent.(children := Some(kids + [child]))]))
  }
}
